=== FILE: README.md ===
# Shared sales records across devices: a Dafny model

The system keeps three record collections, `clientes`, `vendas` and `gastos`,
in sync across devices that share a room. This project models the four
places where that logic lives. Each is modelled on its own terms, because the
four pieces are not wired into one protocol (the browser client sends
`sync-data` and `delete`, which neither server handles).

- `test-local.js` holds two merges:
  - `mergeRemoteData`: a per-type last-write-wins (LWW) merge on
    `lastUpdated`, where a tie goes to the remote copy, sorted greatest first;
  - `mergeRoomData`: the same merge, after which tombstones remove records.

  It also holds a plain FIFO queue of pending deletes.
- `public/app.js` is the browser client:
  - an LWW merge on `timestamp`, where a tie keeps the local copy;
  - the inbound message handlers;
  - the pending-delete queue and its flush;
  - the bounded reconnect counter;
  - timestamp stamping before a push;
  - deletion of the selected records.
- `paes-server.js` is a room server over raw WebSockets. It covers:
  - `join-room`, `update` and `close`;
  - the `/health` aggregate.
- `server.js` is the same kind of room registry over socket.io. It covers:
  - `entrarSala`, `sincronizarDados` and `disconnect`;
  - the `criar-sala` and `validar-sala` endpoints.

Every handler is a pure function from the state to the new state plus the
messages it sends, in order. Modules:

| file | module | models |
|---|---|---|
| wrappers.dfy | `Wrappers` | `Option`, standing for `undefined`/`null` |
| js_map.dfy | `JsMaps` | a JavaScript `Map`: insertion-ordered keys, `set`, `get`, `delete`, `values()` |
| records.dfy | `Records` | records, the three collection names, `field \|\| 0` reads |
| lww.dfy | `Lww` | the id-keyed LWW merge shared by both merges, parametrised by clock field and tie rule, plus an independent characterisation of its outcome (the winner among each id's candidate copies) |
| stamp_sort.dfy | `StampSort` | the sort by `lastUpdated`, greatest first |
| local_merge.dfy | `LocalSync` | test-local.js |
| client.dfy | `ClientApp` | public/app.js |
| ws_server.dfy | `WsServer` | paes-server.js |
| io_server.dfy | `IoServer` | server.js |

A record is an id, its other fields, and optional `lastUpdated` and
`timestamp` clocks. A missing collection, or a value that is not an array,
reads as the empty collection wherever the source reads it that way.

The LWW outcome is characterised independently of the fold:

- **Candidates**: for one id, the merge meets the last local copy and then
  every remote copy, in order.
- **Winner**: the merge keeps the candidate with the greatest version.
- **Ties**: with `>=`, the last of the tied candidates wins; with `>`, the
  first does.

`HoldsWinners` states that a collection holds exactly the winner of each id
of either side, once.

## Model

| member | source | states |
|---|---|---|
| Lww.Merge | test-local.js:16-25 | the last-writer-wins merge of two collections under a chosen clock and tie rule: local records keyed by id, then every remote record offered in order; its behaviour is stated by Lww.MergeOutcome and Lww.MergedCopy |
| Lww.IndexOf | test-local.js:17 | keying the local records by id stores every record under its own id, and exactly the ids present |
| Lww.IndexOfKeepsLastCopy | test-local.js:17 | for each id, the map built from a collection holds that id's last record in the collection |
| Lww.Offer | test-local.js:18-24 | offering one remote record adds its id and no other key, and keeps every entry stored under its own id |
| Lww.OfferAll | test-local.js:18-25 | after all remote records are offered, the keys are the local ids plus the remote ids |
| Lww.OfferAllPerId | test-local.js:18-25 | seen from one id, offering the remote records keeps the held copy unless a copy of that id replaces it, and ignores copies of other ids |
| Lww.ResolveKeepsWinner | test-local.js:18-24 | the copy the fold keeps for an id is the LWW winner among the copies it met; it keeps none only when it met none |
| Lww.MergedCopy | test-local.js:16-25 | every id of either side is in the merged map and holds that id's winner; no other id is there |
| Lww.MergeOutcome | test-local.js:16-25 | the merged collection holds one record per id, exactly the ids of both sides, each the winner of its candidates: nothing is lost or invented |
| Lww.MergeAgainIsFixed | test-local.js:16-25 | merging the same remote records into a merge outcome leaves it unchanged, element for element |
| StampSort.Sort | test-local.js:26 | the result is ordered by `lastUpdated`, a missing one read as 0, greatest first, and is a permutation of the input |
| StampSort.SortKeepsIdsUnique | test-local.js:26 | sorting never duplicates an id |
| StampSort.SortKeepsSorted | test-local.js:26 | sorting a collection that is already in order returns it unchanged |
| LocalSync.MergeCollection | test-local.js:16-27 | one type of `mergeRemoteData`: the merge on `lastUpdated` with the remote copy winning ties, then sorted newest first; stated by LocalSync.MergeCollectionOutcome |
| LocalSync.MergeCollectionOutcome | test-local.js:16-27 | one type after `mergeRemoteData` holds one record per id, keeps every id of either side, keeps each id's winner under `>=` on `lastUpdated`, and is ordered greatest first |
| LocalSync.RemoteReplacesIffNotOlder | test-local.js:18-24 | for one id held once on each side, the result is the remote copy if and only if its `lastUpdated` is at least the local one (a missing one read as 0), and otherwise the local copy |
| LocalSync.MergeTypes | test-local.js:13-28 | the per-type loop sets each listed type to the merge of that type's local and remote collections, a missing one read as empty, and leaves every other key alone |
| LocalSync.MergeRemoteData | test-local.js:10-29 | a null remote leaves the state unchanged; otherwise each of the three types is replaced by its merge and nothing else changes |
| LocalSync.MergeCollectionIdempotent | test-local.js:16-27 | merging the same remote collection twice gives the same result as merging it once |
| LocalSync.MergeRemoteDataIdempotent | test-local.js:10-29 | applying the same remote data twice gives the same state as applying it once |
| LocalSync.BuryRemovesSuppressed | test-local.js:105-111 | after walking the tombstones, an entry is gone exactly when its id has a tombstone not older than its `lastUpdated`; survivors are unaltered; nothing is added |
| LocalSync.ApplyTombstones | test-local.js:104-112 | with tombstones for the type, exactly the suppressed entries are removed, and survivors are unaltered; without them, nothing changes |
| LocalSync.MergeRoomCollection | test-local.js:90-113 | one type of `mergeRoomData`: the same merge, then the type's tombstones; stated by LocalSync.MergeRoomCollectionOutcome and LocalSync.TombstoneBoundary |
| LocalSync.MergeRoomCollectionOutcome | test-local.js:93-113 | the result is a subset of the LWW merge with one record per id; a merged record stays exactly when no tombstone suppresses it |
| LocalSync.TombstoneBoundary | test-local.js:104-112 | the winning copy of a tombstoned id is removed if and only if the tombstone's time is at least its `lastUpdated` |
| LocalSync.WinnerIsMerged | test-local.js:93-102 | each id's winner is in the collection the merge step builds before tombstones apply |
| LocalSync.MergeRoomTypes | test-local.js:89-114 | the loop over the listed types sets each one to its merged, filtered collection and leaves other keys and the tombstones alone |
| LocalSync.MergeRoomData | test-local.js:88-115 | each of the three types becomes its merged, tombstone-filtered collection; other keys and the tombstones are unchanged |
| LocalSync.StaleUpdateStaysDeleted | test-local.js:117-145 | a sale deleted at time `ts` stays deleted when the incoming copy is newer than the stored one but not newer than `ts` |
| LocalSync.NoTombstonesKeepCollection | test-local.js:91-113 | with no tombstones (no map, or the empty map the scenario passes for `clientes`) and nothing incoming, a collection with unique ids is kept as it is |
| LocalSync.QueueDelete | test-local.js:62-66 | `queueDelete`: one entry with the entity, the id, the clock reading and the mock room is appended; stated with the flush by LocalSync.FlushReturnsQueueOrder |
| LocalSync.FlushPendingDeletes | test-local.js:68-70 | `flushPendingDeletes`: returns a copy of the queue; stated by LocalSync.FlushReturnsQueueOrder |
| LocalSync.FlushReturnsQueueOrder | test-local.js:62-83 | after any run of `queueDelete` calls, the flush returns the old queue followed by one entry per request, in order, each stamped with `TEST-ROOM`; the queue itself stays |
| ClientApp.TimestampMerge | public/app.js:279-293 | one type of the client merge: on `timestamp`, with the local copy winning ties; stated by ClientApp.MergeRemoteOutcome and ClientApp.LocalKeptOnTie |
| ClientApp.MergePresentTypes | public/app.js:277-295 | only the types present in the remote data are merged; every other key keeps its value |
| ClientApp.MergeRemote | public/app.js:272-296 | each of the three types present remotely becomes the strict-`>` merge on `timestamp` of the local and remote collections; everything else is kept |
| ClientApp.MergeRemoteOutcome | public/app.js:279-293 | a merged type holds one record per id, every id of either side, and each id's winner under strict `>` on `timestamp` |
| ClientApp.MergeRemoteIdempotent | public/app.js:272-296 | merging the same remote data twice gives the same state as merging it once |
| ClientApp.LocalKeptOnTie | public/app.js:287-291 | for one id held once on each side, the remote copy replaces the local one if and only if its `timestamp` is strictly greater (a missing one read as 0), so a tie keeps the local copy |
| ClientApp.OnMessage | public/app.js:139-171 | `initial-data` and `sync-update` replace `syncData` with the payload; `item-deleted` on a loaded collection removes every copy of the named id, keeps the count of every other record and leaves the other collections alone, and on an unloaded one changes nothing; any other message, parseable or not, changes nothing |
| ClientApp.WithoutIdsCounts | public/app.js:161-164 | the filter drops every record carrying a listed id and keeps every other record, with its multiplicity |
| ClientApp.ItemDeletedOnce | public/app.js:159-166 | applying `item-deleted` twice gives the same state as once, and every other collection is untouched |
| ClientApp.ItemDeletedAllIsFilter | public/app.js:159-166 | one `item-deleted` per id, applied in sequence, equals a single filter by the whole set of ids |
| ClientApp.QueueDelete | public/app.js:331-338 | the queue grows by exactly the entry `{entityType, entityId, now}` at its end, the earlier entries and the rest of the client are kept, and a `delete` goes out at once exactly when the socket is open |
| ClientApp.FlushPendingDeletes | public/app.js:350-359 | a closed socket changes nothing and sends nothing; an open one sends one `delete` per queued entry, entry for entry in queue order, and leaves the queue empty with the rest of the client kept |
| ClientApp.QueueAllAppends | public/app.js:534-536 | queueing a selection appends one entry per selected id, in order, and changes nothing else |
| ClientApp.QueueAllSends | public/app.js:534-536 | an open socket sends one `delete` per selected id, in order; a closed one sends nothing |
| ClientApp.OfflineDeletesFlushInOrder | public/app.js:331-359 | deletes queued while offline are all sent on the next flush, in the order they were queued, and the queue empties |
| ClientApp.OnlineDeleteIsResent | public/app.js:331-359 | a delete queued while open is sent at once and also stays queued, so after the socket closes and reopens it is sent again |
| ClientApp.OnOpen | public/app.js:128-137 | opening marks the socket open, resets the reconnect counter, empties the queue and changes nothing else in the client; it re-joins the saved room when there is one, then sends every queued delete in queue order |
| ClientApp.OnClose | public/app.js:178-187 | closing marks the socket closed; a retry is scheduled, and the counter goes up by one, if and only if the counter is below 10 and automatic sync is on |
| ClientApp.AttemptsStayBounded | public/app.js:182-186 | whatever sequence of opens and closes happens, a counter that starts at most 10 never exceeds 10 |
| ClientApp.ClosesSaturate | public/app.js:182-186 | with automatic sync on, `n` closes in a row raise the counter to the smaller of its start plus `n` and 10 |
| ClientApp.SendSync | public/app.js:219-239 | `enviarSincronizacao`: nothing goes out unless the socket is open, and then exactly one `sync-data` message with the three collections; the client state is kept. Its contents are stated by ClientApp.SendSyncStampsEveryItem |
| ClientApp.SendSyncStampsEveryItem | public/app.js:219-239 | a push goes out only on an open socket and leaves the client unchanged; it carries exactly the three collections of `syncData` (absent ones empty), item for item keeping id, fields and `lastUpdated`, keeping a truthy `timestamp`, and giving every item a non-zero one |
| ClientApp.StampAll | public/app.js:229-234 | stamping keeps the collection's length and, item for item, the id, fields and `lastUpdated`; a truthy `timestamp` is kept and a falsy one becomes the clock reading |
| ClientApp.StampProperties | public/app.js:229-234 | with a non-zero clock, stamping keeps every item's id, fields and `lastUpdated`, leaves an item with a truthy `timestamp` as it is, gives every item a non-zero timestamp, and stamping again, at any time, changes nothing |
| ClientApp.DeleteSelected | public/app.js:526-568 | `deletarClientesSelecionados` and `deletarVendasSelecionadas`, one function for both types; stated by ClientApp.DeleteSelectedQueues, DeleteSelectedFilters, DeleteSelectedWithoutData and DeleteSelectedNoOp |
| ClientApp.DeleteSelectedQueues | public/app.js:526-536 | a confirmed deletion of a non-empty selection queues one entry per selected id, in order, and sends them at once when open; the other type's selection, the room and the server id are kept |
| ClientApp.DeleteSelectedFilters | public/app.js:538-542 | with the collection loaded, no record with a selected id remains, every other record keeps its count, other collections are untouched, and the selection is cleared while the other type's selection, the room and the server id are kept |
| ClientApp.DeleteSelectedWithoutData | public/app.js:538-540 | without the collection loaded, the deletes are queued but the data and the selection stay |
| ClientApp.DeleteSelectedNoOp | public/app.js:526-532 | an empty selection or a refused confirmation changes nothing and sends nothing |
| ClientApp.DeleteSelectedMatchesItemDeletes | public/app.js:534-540 | the local effect of deleting a selection equals the effect of one `item-deleted` message per selected id |
| WsServer.Connect | paes-server.js:30-33 | a new connection is open and has no room, and no other socket or room changes |
| WsServer.RoomName | paes-server.js:41 | the room is the given name when it is non-empty and `default` otherwise, never empty |
| WsServer.Join | paes-server.js:40-74 | the `join-room` handler; stated by WsServer.JoinOutcome, JoinCount and JoinKeepsInv |
| WsServer.JoinOutcome | paes-server.js:40-74 | after a join the socket is in the named room and `ws.room` names it, and no other socket's session changes; an existing room keeps its data and members, a new one starts with three empty collections; exactly two messages go out: the joiner gets `sync` with the data and the set size, itself included, then exactly the other open members get `user-joined` with that size; other rooms are untouched |
| WsServer.JoinCount | paes-server.js:56-64 | re-joining the same room keeps the count, and a newcomer raises it by one |
| WsServer.JoinWithoutNameGoesToDefault | paes-server.js:41-57 | a join without a room name, or with an empty one, puts the socket in room `default` |
| WsServer.RejoinLeavesStaleMember | paes-server.js:42-57 | re-joining elsewhere moves `ws.room` but leaves the socket in its previous room's set, and after it closes that room still holds it |
| WsServer.Update | paes-server.js:79-94 | the `update` handler; the sessions are never changed by it; stated by WsServer.UpdateOutcome and UpdateKeepsInv |
| WsServer.UpdateOutcome | paes-server.js:79-94 | without a room, or when the room is gone, `update` does nothing; otherwise the room's data is replaced by the payload, unmerged, and `sync` with the payload goes to every open member |
| WsServer.UpdateFindsRoom | paes-server.js:79-92 | under the invariant, an update from a socket with a room always reaches its room, and the sender is among the recipients |
| WsServer.Close | paes-server.js:101-125 | the `close` handler; stated by WsServer.CloseOutcome and CloseKeepsInv |
| WsServer.CloseOutcome | paes-server.js:101-125 | on close the socket is marked closed, keeping its `ws.room`, and no other session changes; it leaves its room; the remaining open members get `user-left` with the new size; the room is deleted if and only if its set became empty; other rooms are untouched |
| WsServer.HandleMessage | paes-server.js:36-98 | the `message` handler's dispatch on `type`: text that does not parse and messages of other types change nothing and send nothing; stated further by WsServer.HandleMessageKeepsInv |
| WsServer.IgnoredMessagesChangeNothing | paes-server.js:37-97 | a message that fails to parse, or has an unhandled type, leaves the state as it was and sends nothing |
| WsServer.InitialInv | paes-server.js:27 | the empty registry satisfies the invariant: no room has an empty set, every member is a known socket, and an open socket with a room is in that room |
| WsServer.ConnectKeepsInv | paes-server.js:30-33 | a new connection keeps the invariant |
| WsServer.JoinKeepsInv | paes-server.js:40-77 | a join keeps the invariant |
| WsServer.UpdateKeepsInv | paes-server.js:79-94 | an update keeps the invariant |
| WsServer.CloseKeepsInv | paes-server.js:104-123 | a close keeps the invariant, so no empty room survives it |
| WsServer.HandleMessageKeepsInv | paes-server.js:36-98 | every inbound message keeps the invariant |
| WsServer.Health | paes-server.js:139-145 | the reported room count is the number of rooms in the map |
| WsServer.HealthCountsMembers | paes-server.js:143 | when no socket is in two rooms, the reported client count is the number of distinct sockets in rooms |
| WsServer.SumSizesOfDisjoint | paes-server.js:143 | summing the set sizes of rooms that share no socket counts each socket once |
| IoServer.Connect | server.js:29 | socket.io's connection: the new socket's room set starts as its own id alone, every other socket keeps its room set, and no sala changes; stated further by IoServer.ConnectKeepsInv |
| IoServer.EntrarSala | server.js:33-72 | the `entrarSala` handler; stated by IoServer.EntrarSemCodigo, EntrarSalaOutcome and EntrarSalaKeepsInv |
| IoServer.EntrarSemCodigo | server.js:36 | `entrarSala` with a missing or empty code changes nothing and emits nothing |
| IoServer.EntrarSalaOutcome | server.js:38-69 | after entering, the socket is registered under its id and has joined the room, keeping its earlier rooms and joining no other, and no other socket's rooms change; a new sala starts with three empty collections, an existing one keeps its data; exactly two events go out: the socket gets that data, then every socket of the room, the socket included, gets `total` and the joiner's `dispositivo`; `total` grows by one for a newcomer and stays the same for a re-entry; other salas are untouched |
| IoServer.SincronizarDados | server.js:75-90 | the `sincronizarDados` handler: it never changes any socket's rooms; stated by IoServer.SincronizarDadosOutcome and SyncGoesToFirstRoom |
| IoServer.SincronizarDadosOutcome | server.js:75-90 | without a current room, or when its sala is gone, nothing happens; otherwise the sala's data becomes exactly the payload and the payload is emitted to the room |
| IoServer.SyncGoesToFirstRoom | server.js:76-84 | a socket that entered room `a` and then room `b` keeps writing to `a`, and `b` is not touched |
| IoServer.SyncReachesEveryMember | server.js:80-87 | under the invariant, every socket registered in the synced sala receives the payload, the sender included |
| IoServer.SweepPerRoom | server.js:95-109 | the sweep acts on each sala separately: a visited sala holding the socket loses it and disappears if that empties it; other salas are as they were |
| IoServer.SweepEmits | server.js:95-103 | the sweep only appends, and each notice is a `clienteDesconectado` to sockets that are still connected |
| IoServer.Disconnect | server.js:93-112 | the `disconnect` handler: afterwards the socket is in no room and every other socket keeps its rooms; stated by IoServer.DisconnectOutcome and DisconnectKeepsInv |
| IoServer.DisconnectOutcome | server.js:93-112 | after a disconnect the socket is in no sala and no room, and every other socket keeps its rooms; every sala that held it lost it, and is deleted exactly when that emptied it; other salas are untouched; the notices are exactly `IoServer.Notices` over the rooms as they were: one `clienteDesconectado` per sala that held the socket, in room-code order, to the sockets that were in that room less the leaver, with the sala's former count less one |
| IoServer.SweepNotices | server.js:95-103 | sweeping codes listed once each emits exactly the notices the salas owed before the sweep started, in the order visited |
| IoServer.DisconnectFromOneSala | server.js:95-103 | a socket registered in a single sala causes exactly one notice: the sockets that were in that room, less the leaver, hear the sala's count less one |
| IoServer.CriarSala | server.js:116-127 | `/api/criar-sala` with the generated code: no socket's rooms change; stated by IoServer.CriarThenValidar and CriarSalaKeepsInv |
| IoServer.ValidarSala | server.js:129-132 | `/api/validar-sala/:codigo` answers whether a sala exists under the code; stated by IoServer.CriarThenValidar |
| IoServer.CriarThenValidar | server.js:116-132 | `validar-sala` is true for a code `criar-sala` just registered, whose sala is fresh even if the code existed; other codes are unaffected |
| IoServer.InitialInv | server.js:21 | the empty registry satisfies the invariant: each socket's room set starts with its own id and repeats nothing, and every registered socket has joined its sala's room |
| IoServer.ConnectKeepsInv | server.js:29 | a new connection keeps the invariant |
| IoServer.EntrarSalaKeepsInv | server.js:33-72 | `entrarSala` keeps the invariant |
| IoServer.SincronizarDadosKeepsInv | server.js:75-90 | `sincronizarDados` keeps the invariant |
| IoServer.DisconnectKeepsInv | server.js:93-112 | `disconnect` keeps the invariant |
| IoServer.CriarSalaKeepsInv | server.js:116-127 | `criar-sala` keeps the invariant |

## Left out

- Transport is not modelled. `JSON.parse` and `JSON.stringify`, the WebSocket and socket.io libraries, Express routes, static files, `server.listen` and SIGTERM handling are all outside the model. Inbound messages arrive already parsed, and text that fails to parse is the `Unparseable` message. A socket's `readyState` is reduced to whether it is open.
- The DOM, `localStorage`, notifications and the `fetch`-based server management of app.js are user interface and persistence, and are not modelled.
- Timers are not modelled: the sync debounce, the reconnect delay and the status flashes are time-driven scheduling. Only the reconnect counter is kept.
- `Date.now()` becomes a `now` parameter. When stamping a push, the source reads the clock once per item; the model uses one reading for the whole push. Deleting a selection also takes one `now` for all its entries.
- `Math.random()` client ids, device ids and room codes become parameters. `criar-sala` takes the generated code as an argument.
- Order of the client merge: app.js collects the merged records with `Object.values` on a plain object, which lists integer-like ids first, in numeric order. The model keeps the insertion order. Its client-merge contracts speak about ids and contents only, never about order.
- Values that are neither arrays nor absent: a truthy value that is not an array, where app.js expects a collection, is read as missing. The source would throw in that case.
- Non-string room names: the code of `join-room` and `entrarSala` is taken as a string. `entrarSala` without any payload object, where the source throws, is not modelled.
- Map iteration: the `disconnect` sweep visits the codes present when it starts. Its only deletion is of the sala being visited, so this is the order `Map.forEach` follows.
- LocalSync.MergeRoomData: ids are text, so a numeric id and its decimal text are one id here. test-local.js keys its `Map`s by `item.id` and its tombstones by the id value, and `Map` compares keys by SameValueZero. There, ids `200` and `"200"` are two records, and a tombstone under `200` does not suppress a record with id `"200"`. The model merges and suppresses them as one. The same holds for LocalSync.MergeRemoteData and LocalSync.MergeCollectionOutcome.
- ClientApp.MergeRemote: `merged` in app.js is a plain object. Its keys are strings, so identifying `200` with `"200"` is exact there. But a record with id `__proto__` never appears in `Object.values(merged)`. A remote-only record whose id names an inherited member (`constructor`, `toString`, …) and whose `timestamp` is not positive is dropped, because `!merged[item.id]` is false for it. The model treats these names like any other id, so ClientApp.MergeRemoteOutcome's "every id of either side is kept" does not cover them.
- ClientApp.OnMessage: the `item-deleted` filter uses `!==`, and the selection deletes use `Set.has`. Both are strict, so a record with id `200` survives a delete of `"200"`. The model treats the two as one id. This also applies to ClientApp.DeleteSelected.
- Records without an `id` cannot be represented. In the source they all share the key `undefined` (or `"undefined"` on a plain object).
- StampSort.Sort: does not state that the sort is stable. Insertion keeps records with equal `lastUpdated` in input order, but no contract says so.
- LocalSync.NoTombstonesKeepCollection: covers only the nothing-incoming case, with no tombstone map or an empty one, as for the scenario's untouched `clientes`. The general case follows from `LocalSync.MergeRoomCollectionOutcome`.
- WsServer.HealthCountsMembers: holds only when no socket is in two rooms. A socket that re-joined elsewhere is counted once per room that still holds it (`WsServer.RejoinLeavesStaleMember`), so the reported figure can exceed the number of sockets.
- The WebSocket server's `sharedData` and `/api/dados` are never written by any handler, so they are not modelled.
- test-sync.js is a network test script, and its delete messages have no handler in either server, so it is not part of this model.
- Not present in any of the modelled code, so not modelled: tombstone garbage collection, heartbeats, grace periods before room deletion, and per-room locking.
- Order independence: the merges are not claimed to be commutative for distinct clocks. Both read the local side as a map (the last copy of an id wins) but read every remote copy, so swapping the sides changes the candidates when one side repeats an id.

=== FILE: client.dfy ===
/**
 * The browser client of public/app.js: its own LWW merge on `timestamp`
 * (`mergeRemoteData`), the state changes made by `ws.onmessage`, the
 * pending-delete queue (`queueDelete`, `flushPendingDeletes`), the bounded
 * reconnect counter of `onopen`/`onclose`, the stamping done by
 * `enviarSincronizacao`, and the deletion of the selected clients and sales.
 * The socket is reduced to a flag saying whether it is open; what the client
 * sends is returned as a list of messages.
 */
module ClientApp {
  import opened Wrappers
  import opened JsMaps
  import opened Records
  import opened Lww

  /** `MAX_RECONNECT_ATTEMPTS` */
  const MaxReconnectAttempts: nat := 10

  /** One entry of `pendingDeletes`. */
  datatype PendingDelete = PendingDelete(entityType: string, entityId: Id, timestamp: int)

  /** The messages the client sends, in the shape it gives them. */
  datatype Outgoing =
    | JoinRoom(room: string, serverId: int)
    | Delete(entityType: string, entityId: Id)
    | SyncData(data: Data)

  /** A message as `JSON.parse` reads it; `Unparseable` is text it rejects and
      `OtherType` a message whose `type` the client does not handle. */
  datatype Incoming =
    | InitialData(data: Payload)
    | SyncUpdate(data: Payload)
    | UserJoined(clients: int)
    | UserLeft(clients: int)
    | ItemDeleted(entityType: string, entityId: Id)
    | OtherType
    | Unparseable

  /** The module-level state of app.js that the modelled functions touch.
      `syncData` is `window.syncData` (`None` while unset), `open` says that
      `ws` exists and is OPEN, `room` is `codigoSala`, and the two selections
      are the `Set`s of checked ids, in insertion order. */
  datatype Client = Client(
    syncData: Payload,
    pending: seq<PendingDelete>,
    attempts: nat,
    open: bool,
    autoSync: bool,
    room: Option<string>,
    serverId: int,
    selectedClientes: seq<Id>,
    selectedVendas: seq<Id>)

  /** A handler's outcome: the new state and what it sent, in order. */
  datatype Step = Step(client: Client, sent: seq<Outgoing>)

  // ---------------------------------------------------------------------
  // mergeRemoteData

  /** One type of the client merge: keyed by id, a remote copy replaces the
      held one only when its `timestamp` is strictly greater. */
  function TimestampMerge(local: seq<Record>, remote: seq<Record>): seq<Record> {
    Merge(local, remote, Timestamp, LocalWinsTie)
  }

  /** `['clientes', 'vendas', 'gastos'].forEach(...)` over the names `ts`: a
      type is merged only when `remoteData[type]` is present. */
  function MergePresentTypes(d: Data, remote: Data, ts: seq<string>, merge: (seq<Record>, seq<Record>) -> seq<Record>): (r: Data)
    requires Distinct(ts)
    ensures forall t :: t in ts && t in remote ==>
              t in r && r[t] == merge(CollectionOf(d, t), remote[t])
    ensures forall k :: !(k in ts && k in remote) ==> (k in r <==> k in d) && (k in d ==> r[k] == d[k])
  {
    if |ts| == 0 then d
    else
      var front, t := ts[..|ts| - 1], ts[|ts| - 1];
      assert Distinct(front);
      assert t !in front;
      var prev := MergePresentTypes(d, remote, front, merge);
      if t in remote then prev[t := merge(CollectionOf(prev, t), remote[t])] else prev
  }

  /** `{ clientes: [], vendas: [], gastos: [] }` when `window.syncData` is unset. */
  function SyncBase(syncData: Payload): (d: Data)
    ensures syncData.Some? ==> d == syncData.value
    ensures syncData.None? ==> forall t :: t in EntityTypes ==> t in d && d[t] == []
  {
    if syncData.Some? then syncData.value else EmptyData
  }

  /** `mergeRemoteData(remoteData)`: the new `window.syncData`. Each type that
      `remoteData` carries becomes the merge of the local and remote
      collections; every other type and property is kept, and an unset
      `syncData` starts as three empty collections. */
  function MergeRemote(syncData: Payload, remote: Data): (r: Data)
    ensures forall t :: t in EntityTypes && t in remote ==>
              t in r && r[t] == TimestampMerge(CollectionOf(SyncBase(syncData), t), remote[t])
    ensures forall k :: !(k in EntityTypes && k in remote) ==>
              (k in r <==> k in SyncBase(syncData)) && (k in SyncBase(syncData) ==> r[k] == SyncBase(syncData)[k])
  {
    EntityTypesDistinct();
    MergePresentTypes(SyncBase(syncData), remote, EntityTypes, TimestampMerge)
  }

  /** After the client merge, every merged type holds one record per id, every
      id of either side and no other, each id's winner under strict `>` on
      `timestamp`. */
  lemma MergeRemoteOutcome(syncData: Payload, remote: Data, t: string)
    requires t in EntityTypes && t in remote
    ensures var r := MergeRemote(syncData, remote);
            t in r && HoldsWinners(CollectionOf(SyncBase(syncData), t), remote[t], r[t], Timestamp, LocalWinsTie)
  {
    MergeOutcome(CollectionOf(SyncBase(syncData), t), remote[t], Timestamp, LocalWinsTie);
  }

  /** Merging the same remote data twice is the same as merging it once. */
  lemma MergeRemoteIdempotent(syncData: Payload, remote: Data)
    ensures MergeRemote(Some(MergeRemote(syncData, remote)), remote) == MergeRemote(syncData, remote)
  {
    var once := MergeRemote(syncData, remote);
    var twice := MergeRemote(Some(once), remote);
    forall t | t in EntityTypes && t in remote
      ensures t in twice && t in once && twice[t] == once[t]
    {
      var local := CollectionOf(SyncBase(syncData), t);
      MergeOutcome(local, remote[t], Timestamp, LocalWinsTie);
      MergeAgainIsFixed(local, remote[t], once[t], Timestamp, LocalWinsTie);
      assert CollectionOf(once, t) == once[t];
    }
    assert forall k :: k in twice <==> k in once;
    assert forall k :: k in once ==> twice[k] == once[k];
  }

  /** One local copy against one remote copy of the same id: the remote copy
      replaces the local one exactly when its `timestamp` is strictly greater,
      so a tie keeps the local copy. */
  lemma LocalKeptOnTie(local: seq<Record>, remote: seq<Record>)
    requires |local| == 1 && |remote| == 1 && local[0].id == remote[0].id
    ensures TimestampMerge(local, remote) ==
              if Version(remote[0], Timestamp) > Version(local[0], Timestamp) then remote else local
  {
    var id := local[0].id;
    var w := if Version(remote[0], Timestamp) > Version(local[0], Timestamp) then remote[0] else local[0];
    assert local == [local[0]];
    assert remote == [remote[0]];
    var cs := Candidates(local, remote, id);
    assert cs == [local[0], remote[0]];
    assert Ids(local) + Ids(remote) == {id};
    assert IsWinner(cs, w, Timestamp, LocalWinsTie) by {
      if Version(remote[0], Timestamp) > Version(local[0], Timestamp) {
        assert WinsAt(cs, 1, Timestamp, LocalWinsTie);
      } else {
        assert WinsAt(cs, 0, Timestamp, LocalWinsTie);
      }
    }
    MergeOutcome(local, remote, Timestamp, LocalWinsTie);
    OnlyWinner(local, remote, TimestampMerge(local, remote), w, Timestamp, LocalWinsTie);
  }

  // ---------------------------------------------------------------------
  // ws.onmessage

  /** `collection.filter(item => !ids.has(item.id))` */
  function WithoutIds(s: seq<Record>, ids: set<Id>): seq<Record> {
    if |s| == 0 then []
    else
      var front, last := s[..|s| - 1], s[|s| - 1];
      var kept := WithoutIds(front, ids);
      if last.id in ids then kept else kept + [last]
  }

  /** The state change of one inbound message. `initial-data` and
      `sync-update` replace `syncData` wholesale; `item-deleted` filters the
      named collection when `syncData` holds it (with `syncData` unset the
      lookup throws and the handler's `catch` swallows it); every other
      message, and text that does not parse, changes nothing here. */
  function OnMessage(c: Client, m: Incoming): (r: Client)
    ensures (m.InitialData? || m.SyncUpdate?) ==> r == c.(syncData := m.data)
    ensures m.ItemDeleted? && c.syncData.Some? && m.entityType in c.syncData.value ==>
              && r == c.(syncData := r.syncData)
              && r.syncData.Some? && m.entityType in r.syncData.value
              && (forall x: Record :: multiset(r.syncData.value[m.entityType])[x] ==
                    if x.id == m.entityId then 0 else multiset(c.syncData.value[m.entityType])[x])
              && (forall k :: k != m.entityType ==>
                    && (k in r.syncData.value <==> k in c.syncData.value)
                    && (k in c.syncData.value ==> r.syncData.value[k] == c.syncData.value[k]))
    ensures !(m.InitialData? || m.SyncUpdate? || m.ItemDeleted?) ==> r == c
    ensures m.ItemDeleted? && (c.syncData.None? || m.entityType !in c.syncData.value) ==> r == c
  {
    match m
    case InitialData(d) => c.(syncData := d)
    case SyncUpdate(d) => c.(syncData := d)
    case ItemDeleted(t, id) =>
      if c.syncData.Some? && t in c.syncData.value then
        var sd := c.syncData.value;
        WithoutIdsCounts(sd[t], {id});
        c.(syncData := Some(sd[t := WithoutIds(sd[t], {id})]))
      else c
    case _ => c
  }

  /** The filter drops every copy of a record with a listed id and keeps every
      other record as many times as it occurs. */
  lemma {:induction false} WithoutIdsCounts(s: seq<Record>, ids: set<Id>)
    ensures forall x: Record :: x.id in ids ==> multiset(WithoutIds(s, ids))[x] == 0
    ensures forall x: Record :: x.id !in ids ==> multiset(WithoutIds(s, ids))[x] == multiset(s)[x]
    ensures forall x :: x in WithoutIds(s, ids) <==> x in s && x.id !in ids
  {
    if |s| > 0 {
      var front, last := s[..|s| - 1], s[|s| - 1];
      WithoutIdsCounts(front, ids);
      assert s == front + [last];
      assert multiset(s) == multiset(front) + multiset{last};
    }
  }

  /** Filtering by one set of ids, then by another, is filtering by both. */
  lemma {:induction false} WithoutIdsTwice(s: seq<Record>, a: set<Id>, b: set<Id>)
    ensures WithoutIds(WithoutIds(s, a), b) == WithoutIds(s, a + b)
  {
    if |s| > 0 {
      var front, last := s[..|s| - 1], s[|s| - 1];
      WithoutIdsTwice(front, a, b);
      var fa := WithoutIds(front, a);
      if last.id !in a {
        assert (fa + [last])[..|fa + [last]| - 1] == fa;
      }
    }
  }

  /** `item-deleted` is idempotent, and it leaves every other collection alone. */
  lemma ItemDeletedOnce(c: Client, t: string, id: Id)
    ensures var once := OnMessage(c, ItemDeleted(t, id));
            && OnMessage(once, ItemDeleted(t, id)) == once
            && (c.syncData.Some? ==>
                  && once.syncData.Some?
                  && forall k :: k != t ==>
                       && (k in once.syncData.value <==> k in c.syncData.value)
                       && (k in c.syncData.value ==> once.syncData.value[k] == c.syncData.value[k]))
  {
    if c.syncData.Some? && t in c.syncData.value {
      var sd := c.syncData.value;
      var w := WithoutIds(sd[t], {id});
      WithoutIdsTwice(sd[t], {id}, {id});
      assert {id} + {id} == {id};
      assert WithoutIds(w, {id}) == w;
      assert sd[t := w][t := w] == sd[t := w];
    }
  }

  /** The inbound messages of one `item-deleted` per id of `ids`, in order. */
  function ItemDeletedAll(c: Client, t: string, ids: seq<Id>): Client {
    if |ids| == 0 then c
    else OnMessage(ItemDeletedAll(c, t, ids[..|ids| - 1]), ItemDeleted(t, ids[|ids| - 1]))
  }

  /** The collection filtered by one id after another. */
  function WithoutEach(s: seq<Record>, ids: seq<Id>): seq<Record> {
    if |ids| == 0 then s else WithoutIds(WithoutEach(s, ids[..|ids| - 1]), {ids[|ids| - 1]})
  }

  /** Filtering by one id after another is filtering by all of them at once. */
  lemma {:induction false} WithoutEachIsWithoutAll(s: seq<Record>, ids: seq<Id>)
    ensures WithoutEach(s, ids) == WithoutIds(s, set i | i in ids)
  {
    if |ids| == 0 {
      assert (set i | i in ids) == {};
      WithoutIdsNone(s);
    } else {
      var front, last := ids[..|ids| - 1], ids[|ids| - 1];
      WithoutEachIsWithoutAll(s, front);
      WithoutIdsTwice(s, set i | i in front, {last});
      assert (set i | i in front) + {last} == set i | i in ids by {
        assert ids == front + [last];
      }
    }
  }

  /** One `item-deleted` on a loaded collection filters that collection by the id. */
  lemma ItemDeletedFilters(c: Client, t: string, id: Id)
    requires c.syncData.Some? && t in c.syncData.value
    ensures OnMessage(c, ItemDeleted(t, id)).syncData == Some(c.syncData.value[t := WithoutIds(c.syncData.value[t], {id})])
  {
  }

  /** One `item-deleted` per id filters the collection by one id after another. */
  lemma {:induction false} ItemDeletedAllFilters(c: Client, t: string, ids: seq<Id>)
    requires c.syncData.Some? && t in c.syncData.value
    ensures ItemDeletedAll(c, t, ids).syncData == Some(c.syncData.value[t := WithoutEach(c.syncData.value[t], ids)])
  {
    var sd := c.syncData.value;
    if |ids| == 0 {
      assert sd[t := sd[t]] == sd;
    } else {
      var front, id := ids[..|ids| - 1], ids[|ids| - 1];
      ItemDeletedAllFilters(c, t, front);
      var w := WithoutEach(sd[t], front);
      ItemDeletedFilters(ItemDeletedAll(c, t, front), t, id);
      assert sd[t := w][t := WithoutIds(w, {id})] == sd[t := WithoutEach(sd[t], ids)];
    }
  }

  /** One `item-deleted` per id has the same effect as one filter by all of them. */
  lemma ItemDeletedAllIsFilter(c: Client, t: string, ids: seq<Id>)
    requires c.syncData.Some? && t in c.syncData.value
    ensures ItemDeletedAll(c, t, ids).syncData
              == Some(c.syncData.value[t := WithoutIds(c.syncData.value[t], set i | i in ids)])
  {
    ItemDeletedAllFilters(c, t, ids);
    WithoutEachIsWithoutAll(c.syncData.value[t], ids);
  }

  /** Filtering by no id keeps the collection. */
  lemma {:induction false} WithoutIdsNone(s: seq<Record>)
    ensures WithoutIds(s, {}) == s
  {
    if |s| > 0 {
      var front, last := s[..|s| - 1], s[|s| - 1];
      WithoutIdsNone(front);
      assert last.id !in {};
      assert WithoutIds(s, {}) == WithoutIds(front, {}) + [last];
      assert s == front + [last];
    }
  }

  // ---------------------------------------------------------------------
  // The pending-delete queue

  /** The `delete` messages for the entries of `ps`, in order. */
  function DeletesOf(ps: seq<PendingDelete>): (ms: seq<Outgoing>)
    ensures |ms| == |ps|
    ensures forall i :: 0 <= i < |ps| ==> ms[i] == Delete(ps[i].entityType, ps[i].entityId)
  {
    seq(|ps|, i requires 0 <= i < |ps| => Delete(ps[i].entityType, ps[i].entityId))
  }

  lemma DeletesOfConcat(a: seq<PendingDelete>, b: seq<PendingDelete>)
    ensures DeletesOf(a + b) == DeletesOf(a) + DeletesOf(b)
  {
    var l, r := DeletesOf(a + b), DeletesOf(a) + DeletesOf(b);
    assert |l| == |r|;
    forall i | 0 <= i < |l|
      ensures l[i] == r[i]
    {
      if i < |a| {
        assert (a + b)[i] == a[i];
      } else {
        assert (a + b)[i] == b[i - |a|];
      }
    }
  }

  /** `queueDelete(entityType, entityId)` at time `now`: the entry goes to the
      end of the queue, and the delete is sent at once when the socket is open. */
  function QueueDelete(c: Client, t: string, id: Id, now: int): (s: Step)
    ensures |s.client.pending| == |c.pending| + 1
    ensures s.client.pending[..|c.pending|] == c.pending && s.client.pending[|c.pending|] == PendingDelete(t, id, now)
    ensures s.client == c.(pending := s.client.pending)
    ensures |s.sent| > 0 <==> c.open
    ensures c.open ==> s.sent == [Delete(t, id)]
  {
    Step(c.(pending := c.pending + [PendingDelete(t, id, now)]), if c.open then [Delete(t, id)] else [])
  }

  /** `flushPendingDeletes()`: nothing when the socket is not open or the queue
      is empty; otherwise every entry is sent, in queue order, and the queue is emptied. */
  function FlushPendingDeletes(c: Client): (s: Step)
    ensures s.client == c.(pending := if c.open then [] else c.pending)
    ensures |s.sent| == if c.open then |c.pending| else 0
    ensures forall i :: 0 <= i < |s.sent| ==> s.sent[i] == Delete(c.pending[i].entityType, c.pending[i].entityId)
  {
    if !c.open || |c.pending| == 0 then Step(c, [])
    else Step(c.(pending := []), DeletesOf(c.pending))
  }

  /** `selection.forEach(id => queueDelete(t, id))`, every entry stamped `now`. */
  function QueueAll(c: Client, t: string, ids: seq<Id>, now: int): Step {
    if |ids| == 0 then Step(c, [])
    else
      var prev := QueueAll(c, t, ids[..|ids| - 1], now);
      var q := QueueDelete(prev.client, t, ids[|ids| - 1], now);
      Step(q.client, prev.sent + q.sent)
  }

  /** The entries `queueDelete` adds for `ids`. */
  function EntriesFor(t: string, ids: seq<Id>, now: int): (ps: seq<PendingDelete>)
    ensures |ps| == |ids|
    ensures forall i :: 0 <= i < |ids| ==> ps[i] == PendingDelete(t, ids[i], now)
  {
    seq(|ids|, i requires 0 <= i < |ids| => PendingDelete(t, ids[i], now))
  }

  /** Queueing appends one entry per id, in order, and changes nothing else. */
  lemma {:induction false} QueueAllAppends(c: Client, t: string, ids: seq<Id>, now: int)
    ensures QueueAll(c, t, ids, now).client == c.(pending := c.pending + EntriesFor(t, ids, now))
  {
    if |ids| > 0 {
      var front, last := ids[..|ids| - 1], ids[|ids| - 1];
      QueueAllAppends(c, t, front, now);
      var es, fs := EntriesFor(t, ids, now), EntriesFor(t, front, now);
      assert es == fs + [PendingDelete(t, last, now)];
      assert c.pending + es == (c.pending + fs) + [PendingDelete(t, last, now)];
    }
  }

  /** An open socket sends each queued delete at once, in order; a closed one sends nothing. */
  lemma QueueAllSends(c: Client, t: string, ids: seq<Id>, now: int)
    ensures QueueAll(c, t, ids, now).sent == if c.open then DeletesOf(EntriesFor(t, ids, now)) else []
  {
    if c.open {
      OpenQueueSends(c, t, ids, now);
    } else {
      ClosedQueueIsSilent(c, t, ids, now);
    }
  }

  lemma {:induction false} OpenQueueSends(c: Client, t: string, ids: seq<Id>, now: int)
    requires c.open
    ensures QueueAll(c, t, ids, now).sent == DeletesOf(EntriesFor(t, ids, now))
  {
    if |ids| > 0 {
      var front, last := ids[..|ids| - 1], ids[|ids| - 1];
      OpenQueueSends(c, t, front, now);
      QueueAllAppends(c, t, front, now);
      assert QueueAll(c, t, ids, now).sent == QueueAll(c, t, front, now).sent + [Delete(t, last)];
      assert DeletesOf(EntriesFor(t, ids, now)) == DeletesOf(EntriesFor(t, front, now)) + [Delete(t, last)] by {
        var e := PendingDelete(t, last, now);
        assert EntriesFor(t, ids, now) == EntriesFor(t, front, now) + [e];
        DeletesOfConcat(EntriesFor(t, front, now), [e]);
      }
    }
  }

  lemma {:induction false} ClosedQueueIsSilent(c: Client, t: string, ids: seq<Id>, now: int)
    requires !c.open
    ensures QueueAll(c, t, ids, now).sent == []
  {
    if |ids| > 0 {
      ClosedQueueIsSilent(c, t, ids[..|ids| - 1], now);
    }
  }

  /** Deletes queued while offline are all sent, in the order they were queued,
      by the flush that follows the socket's opening; the queue is then empty,
      and a second flush sends nothing. */
  lemma OfflineDeletesFlushInOrder(c: Client, t: string, ids: seq<Id>, now: int)
    requires !c.open
    ensures var q := QueueAll(c, t, ids, now);
            var f := FlushPendingDeletes(q.client.(open := true));
            && q.sent == []
            && f.sent == DeletesOf(c.pending) + DeletesOf(EntriesFor(t, ids, now))
            && f.client.pending == []
            && FlushPendingDeletes(f.client).sent == []
  {
    QueueAllAppends(c, t, ids, now);
    QueueAllSends(c, t, ids, now);
    var q := QueueAll(c, t, ids, now);
    DeletesOfConcat(c.pending, EntriesFor(t, ids, now));
  }

  /** A delete queued while the socket is open is sent at once and still stays
      queued, so the flush of the next opening sends it again. */
  lemma OnlineDeleteIsResent(c: Client, t: string, id: Id, now: int)
    requires c.open
    ensures var q := QueueDelete(c, t, id, now);
            && q.sent == [Delete(t, id)]
            && FlushPendingDeletes(OnOpen(OnClose(q.client).0).client.(open := true)).sent == []
            && Delete(t, id) in OnOpen(OnClose(q.client).0).sent
  {
    var q := QueueDelete(c, t, id, now);
    var closed := OnClose(q.client).0;
    assert closed.pending == c.pending + [PendingDelete(t, id, now)];
    var ds := DeletesOf(closed.pending);
    assert ds[|ds| - 1] == Delete(t, id);
  }

  // ---------------------------------------------------------------------
  // onopen, onclose and the reconnect counter

  /** `ws.onopen`: the counter is reset, the room is joined again when one is
      set, and the pending deletes are flushed. */
  function OnOpen(c: Client): (s: Step)
    ensures s.client == c.(open := true, attempts := 0, pending := [])
    ensures s.sent == (if c.room.Some? && c.room.value != "" then [JoinRoom(c.room.value, c.serverId)] else [])
                      + DeletesOf(c.pending)
  {
    var up := c.(open := true, attempts := 0);
    var join := if up.room.Some? && up.room.value != "" then [JoinRoom(up.room.value, up.serverId)] else [];
    var f := FlushPendingDeletes(up);
    Step(f.client, join + f.sent)
  }

  /** `ws.onclose`: the socket is no longer open; while below the maximum and
      with automatic sync on, the counter grows by one and a reconnect is
      scheduled (the second component). */
  function OnClose(c: Client): (r: (Client, bool))
    ensures !r.0.open && r.0 == c.(open := false, attempts := r.0.attempts)
    ensures r.1 <==> c.attempts < MaxReconnectAttempts && c.autoSync
    ensures r.0.attempts == if r.1 then c.attempts + 1 else c.attempts
  {
    var closed := c.(open := false);
    if closed.attempts < MaxReconnectAttempts && closed.autoSync then (closed.(attempts := closed.attempts + 1), true)
    else (closed, false)
  }

  /** Socket lifecycle events. */
  datatype SocketEvent = Opened | Closed

  /** The state after a run of socket events, in order. */
  function Run(c: Client, evs: seq<SocketEvent>): Client {
    if |evs| == 0 then c
    else
      var prev := Run(c, evs[..|evs| - 1]);
      match evs[|evs| - 1]
      case Opened => OnOpen(prev).client
      case Closed => OnClose(prev).0
  }

  /** Whatever the events, the reconnect counter never passes `MAX_RECONNECT_ATTEMPTS`. */
  lemma {:induction false} AttemptsStayBounded(c: Client, evs: seq<SocketEvent>)
    requires c.attempts <= MaxReconnectAttempts
    ensures Run(c, evs).attempts <= MaxReconnectAttempts
  {
    if |evs| > 0 {
      AttemptsStayBounded(c, evs[..|evs| - 1]);
    }
  }

  /** `n` closes in a row with automatic sync on count up from the current
      value and stop at the maximum; only the first ones schedule a reconnect. */
  lemma {:induction false} ClosesSaturate(c: Client, n: nat)
    requires c.autoSync && c.attempts <= MaxReconnectAttempts
    ensures Run(c, seq(n, _ => Closed)).attempts ==
              if c.attempts + n <= MaxReconnectAttempts then c.attempts + n else MaxReconnectAttempts
    ensures Run(c, seq(n, _ => Closed)).autoSync
  {
    if n > 0 {
      var evs := seq(n, _ => Closed);
      assert evs[..n - 1] == seq(n - 1, _ => Closed);
      ClosesSaturate(c, n - 1);
    }
  }

  // ---------------------------------------------------------------------
  // enviarSincronizacao

  /** `{ ...item, timestamp: item.timestamp || now }` */
  function Stamp(r: Record, now: int): Record {
    r.(timestamp := if OrZero(r.timestamp) != 0 then r.timestamp else Some(now))
  }

  /** Every item of a collection stamped, in order: each item keeps its id,
      fields and `lastUpdated`; a truthy `timestamp` is kept and a falsy one
      becomes `now`. */
  function StampAll(s: seq<Record>, now: int): (r: seq<Record>)
    ensures |r| == |s|
    ensures forall i :: 0 <= i < |s| ==>
              && r[i].id == s[i].id && r[i].fields == s[i].fields && r[i].lastUpdated == s[i].lastUpdated
              && (OrZero(s[i].timestamp) != 0 ==> r[i] == s[i])
              && (OrZero(s[i].timestamp) == 0 ==> r[i].timestamp == Some(now))
  {
    seq(|s|, i requires 0 <= i < |s| => Stamp(s[i], now))
  }

  /** `window.syncData?.[t] || []` */
  function Outbound(syncData: Payload, t: string): seq<Record> {
    if syncData.Some? then CollectionOf(syncData.value, t) else []
  }

  /** The three collections of `sync-data`, every item stamped. */
  function Stamped(syncData: Payload, now: int): (d: Data)
    ensures d.Keys == set t | t in EntityTypes
    ensures forall t :: t in EntityTypes ==> |d[t]| == |Outbound(syncData, t)|
  {
    map[Clientes := StampAll(Outbound(syncData, Clientes), now),
        Vendas := StampAll(Outbound(syncData, Vendas), now),
        Gastos := StampAll(Outbound(syncData, Gastos), now)]
  }

  /** `enviarSincronizacao()` at time `now`: nothing unless the socket is open;
      otherwise one `sync-data` message with the three collections. The state is kept. */
  function SendSync(c: Client, now: int): (s: Step)
    ensures s.client == c
    ensures |s.sent| == (if c.open then 1 else 0)
    ensures forall m :: m in s.sent ==> m.SyncData? && m.data.Keys == set t | t in EntityTypes
  {
    if !c.open then Step(c, []) else Step(c, [SyncData(Stamped(c.syncData, now))])
  }

  /** Stamping keeps every item's id, fields, `lastUpdated` and any truthy
      `timestamp`; with a non-zero clock, every item leaves with a truthy
      `timestamp`, and stamping again changes nothing. */
  lemma StampProperties(s: seq<Record>, now: int, later: int)
    requires now != 0
    ensures var r := StampAll(s, now);
            && (forall i :: 0 <= i < |s| ==>
                  && r[i].id == s[i].id && r[i].fields == s[i].fields && r[i].lastUpdated == s[i].lastUpdated
                  && (OrZero(s[i].timestamp) != 0 ==> r[i] == s[i])
                  && OrZero(r[i].timestamp) != 0)
            && StampAll(r, later) == r
  {
  }

  /** A push goes out only on an open socket, and it carries the three
      collections of `syncData`, absent ones as empty, item for item: each
      item keeps its id, fields and `lastUpdated`, an item with a truthy
      `timestamp` is sent as it is, and every item carries a non-zero one. */
  lemma SendSyncStampsEveryItem(c: Client, now: int)
    requires now != 0
    ensures var s := SendSync(c, now);
            && s.client == c
            && (!c.open ==> s.sent == [])
            && (c.open ==>
                  && |s.sent| == 1 && s.sent[0].SyncData?
                  && (forall t :: t in s.sent[0].data <==> t in EntityTypes)
                  && forall t :: t in EntityTypes ==>
                       var out, src := s.sent[0].data[t], Outbound(c.syncData, t);
                       && |out| == |src|
                       && forall i :: 0 <= i < |src| ==>
                            && out[i].id == src[i].id && out[i].fields == src[i].fields
                            && out[i].lastUpdated == src[i].lastUpdated
                            && (OrZero(src[i].timestamp) != 0 ==> out[i] == src[i])
                            && OrZero(out[i].timestamp) != 0)
  {
    if c.open {
      forall t | t in EntityTypes
        ensures var out, src := SendSync(c, now).sent[0].data[t], Outbound(c.syncData, t);
                && |out| == |src|
                && forall i :: 0 <= i < |src| ==>
                     && out[i].id == src[i].id && out[i].fields == src[i].fields
                     && out[i].lastUpdated == src[i].lastUpdated
                     && (OrZero(src[i].timestamp) != 0 ==> out[i] == src[i])
                     && OrZero(out[i].timestamp) != 0
      {
        StampProperties(Outbound(c.syncData, t), now, now);
      }
    }
  }

  // ---------------------------------------------------------------------
  // deletarClientesSelecionados / deletarVendasSelecionadas

  /** The selection `Set` of a type. */
  function Selection(c: Client, t: string): seq<Id> {
    if t == Clientes then c.selectedClientes else c.selectedVendas
  }

  /** The type whose selection a deletion of `t` leaves alone. */
  function OtherSelectable(t: string): string {
    if t == Clientes then Vendas else Clientes
  }

  function ClearSelection(c: Client, t: string): Client {
    if t == Clientes then c.(selectedClientes := []) else c.(selectedVendas := [])
  }

  /** The deletion of the selected records of type `t` (`clientes` or
      `vendas`), with the user's answer to `confirm` and the clock reading
      `now`. An empty selection or a refusal changes nothing. Otherwise each
      selected id is queued (and sent when open); then, when `syncData` holds
      the collection, the selected records are filtered out of it and the
      selection is cleared. Without that collection the filter throws after
      the queueing, and the selection stays as it was. */
  function DeleteSelected(c: Client, t: string, confirmed: bool, now: int): (s: Step)
    requires t == Clientes || t == Vendas
  {
    var ids := Selection(c, t);
    if |ids| == 0 || !confirmed then Step(c, [])
    else
      var q := QueueAll(c, t, ids, now);
      var c1 := q.client;
      if c1.syncData.Some? && t in c1.syncData.value then
        var sd := c1.syncData.value;
        Step(ClearSelection(c1.(syncData := Some(sd[t := WithoutIds(sd[t], set i | i in ids)])), t), q.sent)
      else Step(c1, q.sent)
  }

  /** `deletarClientesSelecionados()` */
  function DeleteSelectedClientes(c: Client, confirmed: bool, now: int): Step {
    DeleteSelected(c, Clientes, confirmed, now)
  }

  /** `deletarVendasSelecionadas()` */
  function DeleteSelectedVendas(c: Client, confirmed: bool, now: int): Step {
    DeleteSelected(c, Vendas, confirmed, now)
  }

  /** A confirmed deletion of a non-empty selection queues one entry per
      selected id, in selection order, and sends those deletes at once when
      the socket is open. */
  lemma DeleteSelectedQueues(c: Client, t: string, now: int)
    requires t == Clientes || t == Vendas
    requires |Selection(c, t)| > 0
    ensures var s := DeleteSelected(c, t, true, now);
            var ids := Selection(c, t);
            && s.client.pending == c.pending + EntriesFor(t, ids, now)
            && s.sent == (if c.open then DeletesOf(EntriesFor(t, ids, now)) else [])
            && s.client.open == c.open && s.client.attempts == c.attempts
            && s.client.autoSync == c.autoSync && s.client.room == c.room && s.client.serverId == c.serverId
            && Selection(s.client, OtherSelectable(t)) == Selection(c, OtherSelectable(t))
  {
    QueueAllAppends(c, t, Selection(c, t), now);
    QueueAllSends(c, t, Selection(c, t), now);
  }

  /** With the collection loaded, every selected item leaves it, every other
      item keeps its count, other collections stay, and the selection is cleared. */
  lemma DeleteSelectedFilters(c: Client, t: string, now: int)
    requires t == Clientes || t == Vendas
    requires |Selection(c, t)| > 0
    requires c.syncData.Some? && t in c.syncData.value
    ensures var s := DeleteSelected(c, t, true, now);
            var ids := Selection(c, t);
            && s.client.syncData.Some?
            && t in s.client.syncData.value
            && (forall x :: x in s.client.syncData.value[t] ==> x.id !in ids)
            && (forall x: Record :: x.id !in ids ==>
                  multiset(s.client.syncData.value[t])[x] == multiset(c.syncData.value[t])[x])
            && (forall k :: k != t ==>
                  && (k in s.client.syncData.value <==> k in c.syncData.value)
                  && (k in c.syncData.value ==> s.client.syncData.value[k] == c.syncData.value[k]))
            && Selection(s.client, t) == []
            && Selection(s.client, OtherSelectable(t)) == Selection(c, OtherSelectable(t))
            && s.client.room == c.room && s.client.serverId == c.serverId
  {
    QueueAllAppends(c, t, Selection(c, t), now);
    WithoutIdsCounts(c.syncData.value[t], set i | i in Selection(c, t));
  }

  /** Without the collection loaded, the data and the selection stay (the
      filter throws after the queueing). */
  lemma DeleteSelectedWithoutData(c: Client, t: string, now: int)
    requires t == Clientes || t == Vendas
    requires |Selection(c, t)| > 0
    requires !(c.syncData.Some? && t in c.syncData.value)
    ensures var s := DeleteSelected(c, t, true, now);
            s.client.syncData == c.syncData && Selection(s.client, t) == Selection(c, t)
  {
    QueueAllAppends(c, t, Selection(c, t), now);
  }

  /** An empty selection or a refused confirmation changes nothing and sends nothing. */
  lemma DeleteSelectedNoOp(c: Client, t: string, confirmed: bool, now: int)
    requires t == Clientes || t == Vendas
    requires |Selection(c, t)| == 0 || !confirmed
    ensures DeleteSelected(c, t, confirmed, now) == Step(c, [])
  {
  }

  /** The local effect of deleting a selection is the one the matching
      `item-deleted` messages would have, one per selected id. */
  lemma DeleteSelectedMatchesItemDeletes(c: Client, t: string, now: int)
    requires t == Clientes || t == Vendas
    requires |Selection(c, t)| > 0 && c.syncData.Some? && t in c.syncData.value
    ensures DeleteSelected(c, t, true, now).client.syncData == ItemDeletedAll(c, t, Selection(c, t)).syncData
  {
    QueueAllAppends(c, t, Selection(c, t), now);
    ItemDeletedAllIsFilter(c, t, Selection(c, t));
  }
}

=== FILE: io_server.dfy ===
/**
 * The room server of server.js, over socket.io: a `Map` from room code to a
 * `sala` (a `Map` of registered sockets and the room's data), the handlers
 * of `entrarSala`, `sincronizarDados` and `disconnect`, and the two REST
 * endpoints that create and check a room. socket.io's own room bookkeeping
 * is part of the state: each socket's `socket.rooms`, an insertion-ordered
 * set that starts with the socket's own id, and `io.to(code)` reaching every
 * socket whose set holds `code`.
 */
module IoServer {
  import opened Wrappers
  import opened JsMaps
  import opened Records

  /** `socket.id` */
  type SocketId = string

  /** What a sala records of a socket that entered it. */
  datatype Member = Member(deviceId: Option<string>, dispositivo: Option<string>)

  /** `{ clientes: Map<socket.id, …>, dados }` */
  datatype Sala = Sala(clientes: map<SocketId, Member>, dados: Payload)

  /** `rooms`, and `socket.rooms` of every connected socket, in insertion order. */
  datatype Io = Io(rooms: JsMap<string, Sala>, joined: map<SocketId, seq<string>>)

  datatype Event =
    | DadosAtualizados(dados: Payload)
    | ClienteConectado(total: nat, dispositivo: Option<string>)
    | ClienteDesconectado(total: nat)

  /** One event emitted to each socket of `to`. */
  datatype Emit = Emit(to: set<SocketId>, event: Event)

  /** A handler's outcome: the new state and the emits, in order. */
  datatype Outcome = Outcome(io: Io, out: seq<Emit>)

  /** The sala a new room code gets: nobody registered, three empty collections. */
  const NewSala: Sala := Sala(map[], Some(EmptyData))

  /** `io.to(code)`: the sockets that have joined `code`. */
  function IoMembers(io: Io, code: string): (r: set<SocketId>)
    ensures forall s :: s in r <==> s in io.joined && code in io.joined[s]
  {
    set s | s in io.joined && code in io.joined[s]
  }

  /** `socket.join(code)`: the code is added to the socket's set unless there. */
  function JoinSet(rooms: seq<string>, code: string): (r: seq<string>)
    ensures |r| == if code in rooms then |rooms| else |rooms| + 1
    ensures r[..|rooms|] == rooms
    ensures code in r && (forall c :: c in rooms ==> c in r)
  {
    if code in rooms then rooms else rooms + [code]
  }

  /** socket.io's connection: the socket's set holds its own id only. */
  function Connect(io: Io, sid: SocketId): (r: Io)
    requires sid !in io.joined
    ensures r.rooms == io.rooms && sid in r.joined && r.joined[sid] == [sid]
    ensures r.joined.Keys == io.joined.Keys + {sid}
    ensures forall s :: s in io.joined ==> r.joined[s] == io.joined[s]
  {
    io.(joined := io.joined[sid := [sid]])
  }

  /** `entrarSala`: ignored when the code is missing or empty; otherwise the
      sala is created if absent, the socket is registered in it (again, if
      already there) and joins the socket.io room; the socket gets the sala's
      data, then everyone in the room, the socket included, gets the count. */
  function EntrarSala(io: Io, sid: SocketId, codigoSala: Option<string>, deviceId: Option<string>,
                      dispositivo: Option<string>): (o: Outcome)
    requires io.rooms.Valid() && sid in io.joined
    ensures o.io.rooms.Valid()
  {
    if codigoSala.None? || codigoSala.value == "" then Outcome(io, [])
    else
      var code := codigoSala.value;
      var sala0 := if code in io.rooms.entries then io.rooms.entries[code] else NewSala;
      var sala := sala0.(clientes := sala0.clientes[sid := Member(deviceId, dispositivo)]);
      var io' := Io(Set(io.rooms, code, sala), io.joined[sid := JoinSet(io.joined[sid], code)]);
      Outcome(io', [Emit({sid}, DadosAtualizados(sala.dados)),
                    Emit(IoMembers(io', code), ClienteConectado(|sala.clientes|, dispositivo))])
  }

  /** The room `sincronizarDados` acts on: the second element of the socket's
      set, i.e. the first room it joined; absent when it joined none. */
  function CurrentRoom(io: Io, sid: SocketId): (r: Option<string>)
    requires sid in io.joined
    ensures r.Some? <==> |io.joined[sid]| >= 2 && io.joined[sid][1] != ""
  {
    var rs := io.joined[sid];
    if |rs| < 2 || rs[1] == "" then None else Some(rs[1])
  }

  /** `sincronizarDados`: when the socket's first room has a sala, its data
      becomes the payload, unmerged, and everyone in the room gets it. */
  function SincronizarDados(io: Io, sid: SocketId, dados: Payload): (o: Outcome)
    requires io.rooms.Valid() && sid in io.joined
    ensures o.io.rooms.Valid() && o.io.joined == io.joined
  {
    var current := CurrentRoom(io, sid);
    if current.None? || current.value !in io.rooms.entries then Outcome(io, [])
    else
      var code := current.value;
      var io' := io.(rooms := Set(io.rooms, code, io.rooms.entries[code].(dados := dados)));
      Outcome(io', [Emit(IoMembers(io, code), DadosAtualizados(dados))])
  }

  /** One step of the `disconnect` sweep: a sala that has the socket drops it,
      the room hears the new count, and the sala is deleted if now empty. */
  function Leave(o: Outcome, sid: SocketId, code: string): (r: Outcome)
    requires o.io.rooms.Valid()
    ensures r.io.rooms.Valid() && r.io.joined == o.io.joined
  {
    if code in o.io.rooms.entries && sid in o.io.rooms.entries[code].clientes then
      var sala := o.io.rooms.entries[code];
      var left := sala.(clientes := sala.clientes - {sid});
      var rooms' := if |left.clientes| == 0 then Delete(o.io.rooms, code) else Set(o.io.rooms, code, left);
      Outcome(o.io.(rooms := rooms'), o.out + [Emit(IoMembers(o.io, code), ClienteDesconectado(|left.clientes|))])
    else o
  }

  /** `rooms.forEach` over the given codes, in order. */
  function Sweep(o: Outcome, sid: SocketId, codes: seq<string>): (r: Outcome)
    requires o.io.rooms.Valid()
    ensures r.io.rooms.Valid() && r.io.joined == o.io.joined
  {
    if |codes| == 0 then o else Leave(Sweep(o, sid, codes[..|codes| - 1]), sid, codes[|codes| - 1])
  }

  /** `disconnect`: socket.io has already taken the socket out of all its
      rooms; the handler then sweeps every sala. */
  function Disconnect(io: Io, sid: SocketId): (o: Outcome)
    requires io.rooms.Valid()
    ensures o.io.rooms.Valid() && sid !in o.io.joined
    ensures o.io.joined == io.joined - {sid}
  {
    Sweep(Outcome(io.(joined := io.joined - {sid}), []), sid, io.rooms.keys)
  }

  /** `/api/criar-sala` with the generated code: a fresh sala under it,
      replacing any sala already there. */
  function CriarSala(io: Io, code: string): (r: Io)
    requires io.rooms.Valid()
    ensures r.rooms.Valid() && r.joined == io.joined
  {
    io.(rooms := Set(io.rooms, code, NewSala))
  }

  /** `/api/validar-sala/:codigo` */
  function ValidarSala(io: Io, code: string): bool {
    code in io.rooms.entries
  }

  // ---------------------------------------------------------------------
  // Properties

  /** A falsy room code changes nothing and emits nothing. */
  lemma EntrarSemCodigo(io: Io, sid: SocketId, deviceId: Option<string>, dispositivo: Option<string>)
    requires io.rooms.Valid() && sid in io.joined
    ensures EntrarSala(io, sid, None, deviceId, dispositivo) == Outcome(io, [])
    ensures EntrarSala(io, sid, Some(""), deviceId, dispositivo) == Outcome(io, [])
  {
  }

  /** After entering, the socket is registered in the sala and has joined the
      room, keeping the rooms it had and joining no other; no other socket's
      rooms change. It is sent the sala's data (the existing data, or three
      empty collections for a new sala), and then every socket of the room,
      itself included, is told the new total and the joiner's `dispositivo`;
      nothing else is sent. The count grows by one for a newcomer and stays
      put for a re-entry. Other salas are untouched. */
  lemma EntrarSalaOutcome(io: Io, sid: SocketId, code: string, deviceId: Option<string>, dispositivo: Option<string>)
    requires io.rooms.Valid() && sid in io.joined && code != ""
    ensures var o := EntrarSala(io, sid, Some(code), deviceId, dispositivo);
            var before := if code in io.rooms.entries then io.rooms.entries[code] else NewSala;
            && code in o.io.rooms.entries
            && o.io.rooms.entries[code].clientes == before.clientes[sid := Member(deviceId, dispositivo)]
            && o.io.rooms.entries[code].dados == before.dados
            && code in o.io.joined[sid]
            && o.io.joined.Keys == io.joined.Keys
            && o.io.joined[sid][..|io.joined[sid]|] == io.joined[sid]
            && |o.io.joined[sid]| == |io.joined[sid]| + (if code in io.joined[sid] then 0 else 1)
            && (forall s :: s in io.joined && s != sid ==> o.io.joined[s] == io.joined[s])
            && |o.out| == 2
            && o.out[0] == Emit({sid}, DadosAtualizados(before.dados))
            && o.out[1] == Emit(IoMembers(o.io, code),
                                ClienteConectado(if sid in before.clientes then |before.clientes| else |before.clientes| + 1,
                                                 dispositivo))
            && sid in o.out[1].to
            && (forall k :: k != code ==> Get(o.io.rooms, k) == Get(io.rooms, k))
  {
  }

  /** `sincronizarDados` writes the payload into the socket's first room and
      sends it to everyone there; without a room, or with its sala gone,
      nothing happens. Other salas and all registrations are untouched. */
  lemma SincronizarDadosOutcome(io: Io, sid: SocketId, dados: Payload)
    requires io.rooms.Valid() && sid in io.joined
    ensures var o := SincronizarDados(io, sid, dados);
            var current := CurrentRoom(io, sid);
            && (current.None? || current.value !in io.rooms.entries ==> o == Outcome(io, []))
            && (current.Some? && current.value in io.rooms.entries ==>
                  var code := current.value;
                  && o.io.rooms.keys == io.rooms.keys
                  && o.io.rooms.entries == io.rooms.entries[code := Sala(io.rooms.entries[code].clientes, dados)]
                  && o.out == [Emit(IoMembers(io, code), DadosAtualizados(dados))])
  {
  }

  /** A socket that entered room `a` and then room `b` keeps syncing to `a`:
      the data of `b` is never written by it. */
  lemma SyncGoesToFirstRoom(io: Io, sid: SocketId, a: string, b: string, dados: Payload)
    requires io.rooms.Valid() && sid in io.joined && io.joined[sid] == [sid]
    requires a != "" && b != "" && a != b && a != sid && b != sid
    ensures var i1 := EntrarSala(io, sid, Some(a), None, None).io;
            var i2 := EntrarSala(i1, sid, Some(b), None, None).io;
            var i3 := SincronizarDados(i2, sid, dados).io;
            && i3.rooms.entries[a].dados == dados
            && i3.rooms.entries[b] == i2.rooms.entries[b]
  {
    var i1 := EntrarSala(io, sid, Some(a), None, None).io;
    var i2 := EntrarSala(i1, sid, Some(b), None, None).io;
    assert i1.joined[sid] == [sid, a];
    assert i2.joined[sid] == [sid, a, b];
    assert CurrentRoom(i2, sid) == Some(a);
  }

  /** What the sweep does to one sala holding or not holding the socket. */
  function LeaveRoom(g: Option<Sala>, sid: SocketId): Option<Sala> {
    if g.Some? && sid in g.value.clientes then
      var left := g.value.clientes - {sid};
      if |left| == 0 then None else Some(g.value.(clientes := left))
    else g
  }

  /** One sweep step touches only the sala it visits. */
  lemma LeaveGet(o: Outcome, sid: SocketId, code: string, k: string)
    requires o.io.rooms.Valid()
    ensures Get(Leave(o, sid, code).io.rooms, k) == if k == code then LeaveRoom(Get(o.io.rooms, k), sid) else Get(o.io.rooms, k)
  {
  }

  /** The sweep acts on each sala independently: a sala whose code was swept
      has the socket removed (and is gone if that emptied it); others are as
      they were. Visiting a code twice is the same as once. */
  lemma {:induction false} SweepPerRoom(o: Outcome, sid: SocketId, codes: seq<string>, k: string)
    requires o.io.rooms.Valid()
    ensures Get(Sweep(o, sid, codes).io.rooms, k) == if k in codes then LeaveRoom(Get(o.io.rooms, k), sid) else Get(o.io.rooms, k)
  {
    if |codes| > 0 {
      var front, code := codes[..|codes| - 1], codes[|codes| - 1];
      SweepPerRoom(o, sid, front, k);
      LeaveGet(Sweep(o, sid, front), sid, code, k);
      assert k in codes <==> k in front || k == code by {
        assert codes == front + [code];
      }
    }
  }

  /** The sweep only appends, and every notice it emits is a
      `clienteDesconectado` to sockets still connected. */
  lemma {:induction false} SweepEmits(o: Outcome, sid: SocketId, codes: seq<string>)
    requires o.io.rooms.Valid()
    ensures var r := Sweep(o, sid, codes);
            && |o.out| <= |r.out| && r.out[..|o.out|] == o.out
            && (forall i :: |o.out| <= i < |r.out| ==> r.out[i].event.ClienteDesconectado? && r.out[i].to <= o.io.joined.Keys)
  {
    if |codes| > 0 {
      SweepEmits(o, sid, codes[..|codes| - 1]);
    }
  }

  /** The sala under `code` has the socket registered. */
  predicate Holds(rooms: JsMap<string, Sala>, code: string, sid: SocketId) {
    code in rooms.entries && sid in rooms.entries[code].clientes
  }

  /** The notice a sala that held the leaving socket owes its room: its
      count before the disconnect, less the leaver, to every socket that
      `joined` lists in the room. */
  function NoticeOf(rooms: JsMap<string, Sala>, joined: map<SocketId, seq<string>>, sid: SocketId, code: string): Emit
    requires Holds(rooms, code, sid)
  {
    var n := rooms.entries[code].clientes;
    assert |n| == |n - {sid}| + 1 by {
      assert n.Keys == (n - {sid}).Keys + {sid};
    }
    Emit(IoMembers(Io(rooms, joined), code), ClienteDesconectado(|n| - 1))
  }

  /** The notices a disconnect owes, read off the salas as they were before
      it: one per code of `codes` whose sala held the socket, in the order
      of `codes`, and nothing for the others. */
  function Notices(rooms: JsMap<string, Sala>, joined: map<SocketId, seq<string>>, sid: SocketId, codes: seq<string>): seq<Emit> {
    if |codes| == 0 then []
    else
      var code := codes[|codes| - 1];
      Notices(rooms, joined, sid, codes[..|codes| - 1])
        + (if Holds(rooms, code, sid) then [NoticeOf(rooms, joined, sid, code)] else [])
  }

  /** One sweep step at a sala still as it was in `rooms` emits the notice
      that sala owes, if any. */
  lemma LeaveNotice(p: Outcome, rooms: JsMap<string, Sala>, sid: SocketId, code: string)
    requires p.io.rooms.Valid() && Get(p.io.rooms, code) == Get(rooms, code)
    ensures Leave(p, sid, code).out
              == p.out + (if Holds(rooms, code, sid) then [NoticeOf(rooms, p.io.joined, sid, code)] else [])
  {
    if Holds(rooms, code, sid) {
      var n := rooms.entries[code].clientes;
      assert p.io.rooms.entries[code].clientes == n;
      assert |n - {sid}| == |n| - 1 by {
        assert n.Keys == (n - {sid}).Keys + {sid};
      }
      assert IoMembers(p.io, code) == IoMembers(Io(rooms, p.io.joined), code);
      assert Leave(p, sid, code).out == p.out + [Emit(IoMembers(p.io, code), ClienteDesconectado(|n - {sid}|))];
    } else {
      assert Leave(p, sid, code) == p;
    }
  }

  /** Sweeping codes that are listed once each emits exactly the notices the
      salas owed before the sweep began: a sala is visited before anything
      else has touched it. */
  lemma {:induction false} SweepNotices(o: Outcome, sid: SocketId, codes: seq<string>)
    requires o.io.rooms.Valid() && Distinct(codes)
    ensures Sweep(o, sid, codes).out == o.out + Notices(o.io.rooms, o.io.joined, sid, codes)
  {
    if |codes| > 0 {
      var front, code := codes[..|codes| - 1], codes[|codes| - 1];
      assert Distinct(front);
      assert code !in front;
      SweepNotices(o, sid, front);
      SweepPerRoom(o, sid, front, code);
      LeaveNotice(Sweep(o, sid, front), o.io.rooms, sid, code);
    }
  }

  /** No sala among `codes` held the socket: nothing is owed. */
  lemma {:induction false} NoticesNone(rooms: JsMap<string, Sala>, joined: map<SocketId, seq<string>>, sid: SocketId, codes: seq<string>)
    requires forall k :: k in codes ==> !Holds(rooms, k, sid)
    ensures Notices(rooms, joined, sid, codes) == []
  {
    if |codes| > 0 {
      NoticesNone(rooms, joined, sid, codes[..|codes| - 1]);
    }
  }

  /** Only the sala under `code` held the socket: exactly its notice is owed. */
  lemma {:induction false} NoticesOne(rooms: JsMap<string, Sala>, joined: map<SocketId, seq<string>>, sid: SocketId,
                                      codes: seq<string>, code: string)
    requires Distinct(codes) && code in codes && Holds(rooms, code, sid)
    requires forall k :: k in codes && k != code ==> !Holds(rooms, k, sid)
    ensures Notices(rooms, joined, sid, codes) == [NoticeOf(rooms, joined, sid, code)]
  {
    var front, last := codes[..|codes| - 1], codes[|codes| - 1];
    assert codes == front + [last];
    assert Distinct(front);
    if last == code {
      assert code !in front;
      NoticesNone(rooms, joined, sid, front);
    } else {
      NoticesOne(rooms, joined, sid, front, code);
    }
  }

  /** After a disconnect the socket is in no sala and no room, and every
      other socket keeps its rooms; every sala that held it has lost it, and
      is deleted exactly when that emptied it; every other sala is as it was.
      Every sala that held it, and no other, sends the sockets that were in
      its room, the leaver excepted, one `clienteDesconectado` with its former
      count less one, in the order of the room codes. */
  lemma DisconnectOutcome(io: Io, sid: SocketId)
    requires io.rooms.Valid()
    ensures var o := Disconnect(io, sid);
            && o.io.joined == io.joined - {sid}
            && (forall k :: Get(o.io.rooms, k) == LeaveRoom(Get(io.rooms, k), sid))
            && (forall k :: k in o.io.rooms.entries ==> sid !in o.io.rooms.entries[k].clientes)
            && (forall e :: e in o.out ==> e.event.ClienteDesconectado? && sid !in e.to)
            && o.out == Notices(io.rooms, io.joined - {sid}, sid, io.rooms.keys)
  {
    var start := Outcome(io.(joined := io.joined - {sid}), []);
    var o := Disconnect(io, sid);
    SweepEmits(start, sid, io.rooms.keys);
    SweepNotices(start, sid, io.rooms.keys);
    forall k
      ensures Get(o.io.rooms, k) == LeaveRoom(Get(io.rooms, k), sid)
    {
      SweepPerRoom(start, sid, io.rooms.keys, k);
    }
    forall k | k in o.io.rooms.entries
      ensures sid !in o.io.rooms.entries[k].clientes
    {
      assert Get(o.io.rooms, k) == LeaveRoom(Get(io.rooms, k), sid);
    }
  }

  /** A socket registered in a single sala: the sockets that were in its room
      before, less the leaver, hear the sala's new count, and no other notice
      is sent. */
  lemma DisconnectFromOneSala(io: Io, sid: SocketId, code: string)
    requires io.rooms.Valid() && Holds(io.rooms, code, sid)
    requires forall k :: k != code ==> !Holds(io.rooms, k, sid)
    ensures var o := Disconnect(io, sid);
            o.out == [Emit(IoMembers(io, code) - {sid}, ClienteDesconectado(|io.rooms.entries[code].clientes| - 1))]
  {
    var o := Disconnect(io, sid);
    DisconnectOutcome(io, sid);
    NoticesOne(io.rooms, io.joined - {sid}, sid, io.rooms.keys, code);
    assert IoMembers(Io(io.rooms, io.joined - {sid}), code) == IoMembers(io, code) - {sid};
  }

  /** A created room is valid until something deletes it. */
  lemma CriarThenValidar(io: Io, code: string)
    requires io.rooms.Valid()
    ensures ValidarSala(CriarSala(io, code), code)
    ensures CriarSala(io, code).rooms.entries[code] == NewSala
    ensures forall k :: k != code ==> ValidarSala(CriarSala(io, code), k) == ValidarSala(io, k)
  {
  }

  // ---------------------------------------------------------------------
  // The bookkeeping invariant

  /** Each socket's set starts with its own id and repeats nothing, and every
      socket registered in a sala has joined that sala's room. */
  ghost predicate Inv(io: Io) {
    && io.rooms.Valid()
    && (forall s :: s in io.joined ==> |io.joined[s]| > 0 && io.joined[s][0] == s && Distinct(io.joined[s]))
    && (forall code, s :: code in io.rooms.entries && s in io.rooms.entries[code].clientes ==>
          s in io.joined && code in io.joined[s])
  }

  lemma InitialInv()
    ensures Inv(Io(Empty(), map[]))
  {
  }

  lemma ConnectKeepsInv(io: Io, sid: SocketId)
    requires Inv(io) && sid !in io.joined
    ensures Inv(Connect(io, sid))
  {
  }

  lemma {:induction false} JoinSetDistinct(rooms: seq<string>, code: string)
    requires Distinct(rooms)
    ensures Distinct(JoinSet(rooms, code))
  {
    if code !in rooms {
      var r := rooms + [code];
      forall i, j | 0 <= i < j < |r|
        ensures r[i] != r[j]
      {
        if j == |rooms| {
          assert r[i] == rooms[i];
        } else {
          assert r[i] == rooms[i] && r[j] == rooms[j];
        }
      }
    }
  }

  lemma EntrarSalaKeepsInv(io: Io, sid: SocketId, codigoSala: Option<string>, deviceId: Option<string>, dispositivo: Option<string>)
    requires Inv(io) && sid in io.joined
    ensures Inv(EntrarSala(io, sid, codigoSala, deviceId, dispositivo).io)
  {
    if codigoSala.Some? && codigoSala.value != "" {
      JoinSetDistinct(io.joined[sid], codigoSala.value);
    }
  }

  lemma SincronizarDadosKeepsInv(io: Io, sid: SocketId, dados: Payload)
    requires Inv(io) && sid in io.joined
    ensures Inv(SincronizarDados(io, sid, dados).io)
  {
  }

  lemma CriarSalaKeepsInv(io: Io, code: string)
    requires Inv(io)
    ensures Inv(CriarSala(io, code))
  {
  }

  /** The disconnected socket is gone from every sala and from socket.io, so
      every registration left still has its room joined. */
  lemma DisconnectKeepsInv(io: Io, sid: SocketId)
    requires Inv(io)
    ensures Inv(Disconnect(io, sid).io)
  {
    var o := Disconnect(io, sid);
    forall code, s | code in o.io.rooms.entries && s in o.io.rooms.entries[code].clientes
      ensures code in io.rooms.entries && s in io.rooms.entries[code].clientes && s != sid
    {
      DisconnectKeepsRegistration(io, sid, code, s);
    }
    InvOfParts(io, o.io, sid);
  }

  /** The socket sets of the others are untouched by one socket leaving. */
  lemma InvOfParts(io: Io, io': Io, sid: SocketId)
    requires Inv(io) && io'.rooms.Valid() && io'.joined == io.joined - {sid}
    requires forall code, s :: code in io'.rooms.entries && s in io'.rooms.entries[code].clientes ==>
               code in io.rooms.entries && s in io.rooms.entries[code].clientes && s != sid
    ensures Inv(io')
  {
  }

  /** A registration that survives a disconnect was there before, and is not
      the leaving socket's. */
  lemma DisconnectKeepsRegistration(io: Io, sid: SocketId, code: string, s: SocketId)
    requires io.rooms.Valid()
    requires var r := Disconnect(io, sid).io.rooms; code in r.entries && s in r.entries[code].clientes
    ensures code in io.rooms.entries && s in io.rooms.entries[code].clientes && s != sid
  {
    var start := Outcome(io.(joined := io.joined - {sid}), []);
    SweepPerRoom(start, sid, io.rooms.keys, code);
    LeaveRoomMembers(Get(io.rooms, code), sid);
  }

  /** A sala the sweep keeps had the same members, less the socket. */
  lemma LeaveRoomMembers(g: Option<Sala>, sid: SocketId)
    ensures LeaveRoom(g, sid).Some? ==> g.Some? && LeaveRoom(g, sid).value.clientes.Keys == g.value.clientes.Keys - {sid}
  {
  }

  /** Under the invariant, every socket registered in the synced room
      receives the new data, the sender included. */
  lemma SyncReachesEveryMember(io: Io, sid: SocketId, dados: Payload)
    requires Inv(io) && sid in io.joined
    requires CurrentRoom(io, sid).Some? && CurrentRoom(io, sid).value in io.rooms.entries
    ensures var o := SincronizarDados(io, sid, dados);
            && io.rooms.entries[CurrentRoom(io, sid).value].clientes.Keys <= o.out[0].to
            && sid in o.out[0].to
  {
  }
}

=== FILE: js_map.dfy ===
/**
 * A JavaScript `Map`: its entries together with the order in which their keys
 * were first inserted. `set` on a present key replaces the value in place and
 * keeps the key's position; `set` on a new key appends it; `delete` removes it.
 * Iteration (`forEach`, `values()`) follows `keys`.
 */
module JsMaps {
  import opened Wrappers

  datatype JsMap<K(==, !new), V> = JsMap(keys: seq<K>, entries: map<K, V>) {

    /** The keys are listed once each, and exactly the keys of `entries` are listed. */
    ghost predicate Valid() {
      && Distinct(keys)
      && (forall k :: k in entries <==> k in keys)
    }

    /** `map.size` */
    function Size(): nat {
      |keys|
    }
  }

  function Empty<K(==, !new), V>(): (m: JsMap<K, V>)
    ensures m.Valid() && m.entries == map[] && m.keys == []
  {
    JsMap([], map[])
  }

  /** `map.get(k)`, with `undefined` as `None`. */
  function Get<K(==, !new), V>(m: JsMap<K, V>, k: K): Option<V> {
    if k in m.entries then Some(m.entries[k]) else None
  }

  /** `map.set(k, v)` */
  function Set<K(==, !new), V>(m: JsMap<K, V>, k: K, v: V): (r: JsMap<K, V>)
    requires m.Valid()
    ensures r.Valid()
    ensures r.entries == m.entries[k := v]
    ensures k in m.entries ==> r.keys == m.keys
    ensures k !in m.entries ==> r.keys == m.keys + [k]
  {
    if k in m.entries then JsMap(m.keys, m.entries[k := v])
    else JsMap(m.keys + [k], m.entries[k := v])
  }

  /** `map.delete(k)`; a missing key leaves the map as it was. */
  function Delete<K(==, !new), V>(m: JsMap<K, V>, k: K): (r: JsMap<K, V>)
    requires m.Valid()
    ensures r.Valid()
    ensures r.entries == m.entries - {k}
    ensures k !in m.entries ==> r == m
  {
    if k in m.entries then JsMap(Without(m.keys, k), m.entries - {k}) else m
  }

  /** `Array.from(map.values())`: the values in key order. */
  function Values<K(==, !new), V>(m: JsMap<K, V>): (vs: seq<V>)
    requires m.Valid()
    ensures |vs| == |m.keys|
    ensures forall i :: 0 <= i < |vs| ==> m.keys[i] in m.entries && vs[i] == m.entries[m.keys[i]]
  {
    seq(|m.keys|, i requires 0 <= i < |m.keys| => m.entries[m.keys[i]])
  }

  /** No element occurs twice in `s`. */
  ghost predicate Distinct<K>(s: seq<K>) {
    forall i, j :: 0 <= i < j < |s| ==> s[i] != s[j]
  }

  /** `s` with every occurrence of `k` removed, the rest in order. */
  function Without<K(==, !new)>(s: seq<K>, k: K): (r: seq<K>)
    ensures forall x :: x in r <==> x in s && x != k
    ensures Distinct(s) ==> Distinct(r)
  {
    if |s| == 0 then []
    else if s[0] == k then Without(s[1..], k)
    else
      var rest := Without(s[1..], k);
      assert Distinct(s) ==> s[0] !in s[1..];
      [s[0]] + rest
  }
}

=== FILE: local_merge.dfy ===
/**
 * The room merge of test-local.js: `mergeRemoteData` (LWW on `lastUpdated`,
 * ties to the remote copy, result sorted newest first), `mergeRoomData` (the
 * same merge followed by tombstone suppression) and the pending-delete queue
 * (`queueDelete`, `flushPendingDeletes`).
 */
module LocalSync {
  import opened Wrappers
  import opened JsMaps
  import opened Records
  import opened Lww
  import opened StampSort

  // ---------------------------------------------------------------------
  // mergeRemoteData

  /** One entity type of `mergeRemoteData`: merged, then sorted by `lastUpdated`, greatest first. */
  function MergeCollection(local: seq<Record>, remote: seq<Record>): seq<Record> {
    Sort(Merge(local, remote, LastUpdated, RemoteWinsTie))
  }

  /** The merged collection holds one record per id, every id of either side and
      no other, each id's LWW winner (ties to the remote copy), newest first. */
  lemma MergeCollectionOutcome(local: seq<Record>, remote: seq<Record>)
    ensures HoldsWinners(local, remote, MergeCollection(local, remote), LastUpdated, RemoteWinsTie)
    ensures SortedDesc(MergeCollection(local, remote))
  {
    var merged := Merge(local, remote, LastUpdated, RemoteWinsTie);
    MergeOutcome(local, remote, LastUpdated, RemoteWinsTie);
    SortKeepsIdsUnique(merged);
    WinnersInAnyOrder(local, remote, merged, Sort(merged), LastUpdated, RemoteWinsTie);
  }

  /** `tipos.forEach(tipo => app[tipo] = merge(locais, remotos))` over the type
      names `ts`, in order, where a non-array collection is read as empty. */
  function MergeTypes(app: Data, remote: Data, ts: seq<string>, merge: (seq<Record>, seq<Record>) -> seq<Record>): (r: Data)
    requires Distinct(ts)
    ensures forall t :: t in ts ==>
              t in r && r[t] == merge(CollectionOf(app, t), CollectionOf(remote, t))
    ensures forall k :: k !in ts ==> (k in r <==> k in app) && (k in app ==> r[k] == app[k])
  {
    if |ts| == 0 then app
    else
      var front, t := ts[..|ts| - 1], ts[|ts| - 1];
      assert Distinct(front);
      assert t !in front;
      var prev := MergeTypes(app, remote, front, merge);
      prev[t := merge(CollectionOf(prev, t), CollectionOf(remote, t))]
  }

  /** `mergeRemoteData(app, remote)`: nothing when `remote` is null; otherwise
      each of the three types becomes the merge of its local and remote
      collections (a non-array collection read as empty), and every other
      property of `app` is kept. */
  function MergeRemoteData(app: Data, remote: Option<Data>): (r: Data)
    ensures remote.None? ==> r == app
    ensures remote.Some? ==> forall t :: t in EntityTypes ==>
              t in r && r[t] == MergeCollection(CollectionOf(app, t), CollectionOf(remote.value, t))
    ensures forall k :: k !in EntityTypes ==> (k in r <==> k in app) && (k in app ==> r[k] == app[k])
  {
    match remote
    case None => app
    case Some(rd) =>
      EntityTypesDistinct();
      MergeTypes(app, rd, EntityTypes, MergeCollection)
  }

  /** The same elements with unique ids hold the same winners, whatever their order. */
  lemma WinnersInAnyOrder(local: seq<Record>, remote: seq<Record>, r: seq<Record>, t: seq<Record>, c: Clock, tie: TieBreak)
    requires HoldsWinners(local, remote, r, c, tie)
    requires UniqueIds(t)
    requires forall x :: x in t <==> x in r
    ensures HoldsWinners(local, remote, t, c, tie)
  {
    assert Ids(t) == Ids(r);
    forall i | 0 <= i < |t|
      ensures IsWinner(Candidates(local, remote, t[i].id), t[i], c, tie)
    {
      assert t[i] in t;
      var j :| 0 <= j < |r| && r[j] == t[i];
    }
  }

  /** Merging the same remote data twice is the same as merging it once. */
  lemma MergeCollectionIdempotent(local: seq<Record>, remote: seq<Record>)
    ensures MergeCollection(MergeCollection(local, remote), remote) == MergeCollection(local, remote)
  {
    var r := MergeCollection(local, remote);
    MergeCollectionOutcome(local, remote);
    MergeAgainIsFixed(local, remote, r, LastUpdated, RemoteWinsTie);
    SortKeepsSorted(r);
  }

  /** `mergeRemoteData` is idempotent: applying the same remote data again changes nothing. */
  lemma MergeRemoteDataIdempotent(app: Data, remote: Data)
    ensures MergeRemoteData(MergeRemoteData(app, Some(remote)), Some(remote)) == MergeRemoteData(app, Some(remote))
  {
    var once := MergeRemoteData(app, Some(remote));
    var twice := MergeRemoteData(once, Some(remote));
    forall t | t in EntityTypes
      ensures t in twice && t in once && twice[t] == once[t]
    {
      var a, b := CollectionOf(app, t), CollectionOf(remote, t);
      assert once[t] == MergeCollection(a, b);
      assert CollectionOf(once, t) == once[t];
      assert twice[t] == MergeCollection(once[t], b);
      MergeCollectionIdempotent(a, b);
    }
    assert forall k :: k in twice <==> k in once;
    assert forall k :: k in once ==> twice[k] == once[k];
  }

  /** One local copy against one remote copy of the same id: the remote copy
      replaces the local one exactly when its `lastUpdated` is not smaller, so a
      tie goes to the remote copy (in the scenario of test-local.js, 200 replaces 100). */
  lemma RemoteReplacesIffNotOlder(local: seq<Record>, remote: seq<Record>)
    requires |local| == 1 && |remote| == 1 && local[0].id == remote[0].id
    ensures MergeCollection(local, remote) ==
              if Version(remote[0], LastUpdated) >= Version(local[0], LastUpdated) then remote else local
  {
    var id := local[0].id;
    var w := if Version(remote[0], LastUpdated) >= Version(local[0], LastUpdated) then remote[0] else local[0];
    SingleCandidates(local, remote);
    var cs := Candidates(local, remote, id);
    assert IsWinner(cs, w, LastUpdated, RemoteWinsTie) by {
      if Version(remote[0], LastUpdated) >= Version(local[0], LastUpdated) {
        assert WinsAt(cs, 1, LastUpdated, RemoteWinsTie);
      } else {
        assert WinsAt(cs, 0, LastUpdated, RemoteWinsTie);
      }
    }
    MergeCollectionOutcome(local, remote);
    OnlyWinner(local, remote, MergeCollection(local, remote), w, LastUpdated, RemoteWinsTie);
  }

  /** One record on each side, same id: the candidates are the local one, then the remote one. */
  lemma SingleCandidates(local: seq<Record>, remote: seq<Record>)
    requires |local| == 1 && |remote| == 1 && local[0].id == remote[0].id
    ensures Candidates(local, remote, local[0].id) == [local[0], remote[0]]
    ensures Ids(local) + Ids(remote) == {local[0].id}
  {
    assert local == [local[0]];
    assert remote == [remote[0]];
  }

  // ---------------------------------------------------------------------
  // mergeRoomData

  /** Per entity type, a `Map` from id to deletion time. */
  type Tombstones = JsMap<Id, int>

  /** The room structure of test-local.js: its data and, per type, its tombstones
      (a type without an entry has none). */
  datatype RoomData = RoomData(data: Data, tombstones: map<string, Tombstones>)

  ghost predicate ValidTombstones(room: RoomData) {
    forall t :: t in room.tombstones ==> room.tombstones[t].Valid()
  }

  /** A tombstone stamped at or after the record's `lastUpdated` removes it. */
  predicate Suppressed(tomb: Tombstones, r: Record) {
    r.id in tomb.entries && tomb.entries[r.id] >= Version(r, LastUpdated)
  }

  /** `tombstones[type].forEach((ts, tombId) => ...)` over the keys `ks`, in order:
      an entry of the map is deleted when its tombstone is not older than it. */
  function Bury(m: Index, tomb: Tombstones, ks: seq<Id>): (r: Index)
    requires KeyedById(m) && tomb.Valid()
    requires forall k :: k in ks ==> k in tomb.entries
    ensures KeyedById(r)
  {
    if |ks| == 0 then m
    else
      var prev := Bury(m, tomb, ks[..|ks| - 1]);
      var id := ks[|ks| - 1];
      match Get(prev, id)
      case Some(entry) => if tomb.entries[id] >= Version(entry, LastUpdated) then Delete(prev, id) else prev
      case None => prev
  }

  /** Burying only removes entries, exactly those whose tombstone (among `ks`) is not older. */
  lemma {:induction false} BuryRemovesSuppressed(m: Index, tomb: Tombstones, ks: seq<Id>)
    requires KeyedById(m) && tomb.Valid()
    requires forall k :: k in ks ==> k in tomb.entries
    requires Distinct(ks)
    ensures var r := Bury(m, tomb, ks);
            && (forall x :: x in r.entries <==> x in m.entries && !(x in ks && Suppressed(tomb, m.entries[x])))
            && (forall x :: x in r.entries ==> r.entries[x] == m.entries[x])
  {
    if |ks| > 0 {
      var front := ks[..|ks| - 1];
      assert Distinct(front);
      BuryRemovesSuppressed(m, tomb, front);
      assert ks == front + [ks[|ks| - 1]];
    }
  }

  /** The tombstone pass of `mergeRoomData` over one type's map, when the room has
      tombstones of that type: exactly the suppressed entries go, the rest stay as they were. */
  function ApplyTombstones(m: Index, tomb: Option<Tombstones>): (r: Index)
    requires KeyedById(m)
    requires tomb.Some? ==> tomb.value.Valid()
    ensures KeyedById(r)
    ensures forall x :: x in r.entries <==> x in m.entries && !(tomb.Some? && Suppressed(tomb.value, m.entries[x]))
    ensures forall x :: x in r.entries ==> r.entries[x] == m.entries[x]
  {
    match tomb
    case None => m
    case Some(ts) =>
      BuryRemovesSuppressed(m, ts, ts.keys);
      Bury(m, ts, ts.keys)
  }

  /** One entity type of `mergeRoomData`: the LWW merge, then the tombstones of that type. */
  function MergeRoomCollection(local: seq<Record>, remote: seq<Record>, tomb: Option<Tombstones>): seq<Record>
    requires tomb.Some? ==> tomb.value.Valid()
  {
    Values(ApplyTombstones(OfferAll(IndexOf(local), remote, LastUpdated, RemoteWinsTie), tomb))
  }

  /** The tombstone pass only removes: every record it returns is a merged record,
      unaltered, and a merged record is returned exactly when no tombstone of its
      id is at or after its `lastUpdated`. */
  lemma MergeRoomCollectionOutcome(local: seq<Record>, remote: seq<Record>, tomb: Option<Tombstones>)
    requires tomb.Some? ==> tomb.value.Valid()
    ensures var r := MergeRoomCollection(local, remote, tomb);
            var merged := Merge(local, remote, LastUpdated, RemoteWinsTie);
            && UniqueIds(r)
            && (forall x :: x in r ==> x in merged)
            && (forall x :: x in merged ==> (x in r <==> !(tomb.Some? && Suppressed(tomb.value, x))))
  {
    var m := OfferAll(IndexOf(local), remote, LastUpdated, RemoteWinsTie);
    var m' := ApplyTombstones(m, tomb);
    KeyedValuesUnique(m');
    SurvivorsOf(m, m', tomb);
  }

  /** The records of a map keyed by id carry distinct ids. */
  lemma KeyedValuesUnique(m: Index)
    requires KeyedById(m)
    ensures UniqueIds(Values(m))
  {
  }

  /** Values of a map that kept some entries of another, unchanged, are values of the other. */
  lemma SurvivorsOf(m: Index, m': Index, tomb: Option<Tombstones>)
    requires KeyedById(m) && KeyedById(m')
    requires tomb.Some? ==> tomb.value.Valid()
    requires forall x :: x in m'.entries <==> x in m.entries && !(tomb.Some? && Suppressed(tomb.value, m.entries[x]))
    requires forall x :: x in m'.entries ==> m'.entries[x] == m.entries[x]
    ensures forall x :: x in Values(m') ==> x in Values(m)
    ensures forall x :: x in Values(m) ==> (x in Values(m') <==> !(tomb.Some? && Suppressed(tomb.value, x)))
  {
    var vs, vs' := Values(m), Values(m');
    forall x | x in vs'
      ensures x in vs
    {
      var i :| 0 <= i < |vs'| && vs'[i] == x;
      var k := m'.keys[i];
      var j :| 0 <= j < |m.keys| && m.keys[j] == k;
      assert vs[j] == x;
    }
    forall x | x in vs && !(tomb.Some? && Suppressed(tomb.value, x))
      ensures x in vs'
    {
      var i :| 0 <= i < |vs| && vs[i] == x;
      var k := m.keys[i];
      var j :| 0 <= j < |m'.keys| && m'.keys[j] == k;
      assert vs'[j] == x;
    }
  }

  /** `tombstones[type]` when the room has tombstones of that type. */
  function TombstonesOf(room: RoomData, t: string): Option<Tombstones> {
    if t in room.tombstones then Some(room.tombstones[t]) else None
  }

  function MergeRoomType(room: RoomData, incoming: Data, t: string): (r: RoomData)
    requires ValidTombstones(room)
    ensures r.tombstones == room.tombstones
    ensures t in r.data && r.data[t] == MergeRoomCollection(CollectionOf(room.data, t), CollectionOf(incoming, t), TombstonesOf(room, t))
    ensures forall k :: k != t ==> (k in r.data <==> k in room.data) && (k in room.data ==> r.data[k] == room.data[k])
  {
    room.(data := room.data[t := MergeRoomCollection(CollectionOf(room.data, t), CollectionOf(incoming, t), TombstonesOf(room, t))])
  }

  /** `types.forEach(...)` of `mergeRoomData` over the type names `ts`, in order. */
  function MergeRoomTypes(room: RoomData, incoming: Data, ts: seq<string>): (r: RoomData)
    requires ValidTombstones(room) && Distinct(ts)
    ensures r.tombstones == room.tombstones
    ensures forall t :: t in ts ==>
              t in r.data && r.data[t] == MergeRoomCollection(CollectionOf(room.data, t), CollectionOf(incoming, t), TombstonesOf(room, t))
    ensures forall k :: k !in ts ==> (k in r.data <==> k in room.data) && (k in room.data ==> r.data[k] == room.data[k])
  {
    if |ts| == 0 then room
    else
      var front, t := ts[..|ts| - 1], ts[|ts| - 1];
      assert Distinct(front);
      assert t !in front;
      var prev := MergeRoomTypes(room, incoming, front);
      assert CollectionOf(prev.data, t) == CollectionOf(room.data, t);
      MergeRoomType(prev, incoming, t)
  }

  /** `mergeRoomData(roomData, incoming)`: each of the three types becomes its
      merge followed by its tombstones; tombstones and every other property are kept. */
  function MergeRoomData(room: RoomData, incoming: Data): (r: RoomData)
    requires ValidTombstones(room)
    ensures r.tombstones == room.tombstones
    ensures forall t :: t in EntityTypes ==>
              t in r.data && r.data[t] == MergeRoomCollection(CollectionOf(room.data, t), CollectionOf(incoming, t), TombstonesOf(room, t))
    ensures forall k :: k !in EntityTypes ==> (k in r.data <==> k in room.data) && (k in room.data ==> r.data[k] == room.data[k])
  {
    EntityTypesDistinct();
    MergeRoomTypes(room, incoming, EntityTypes)
  }

  /** The tombstone boundary: a tombstone at time `ts` removes the winning copy
      `w` of its id when `ts >= w.lastUpdated` and keeps it when `ts < w.lastUpdated`. */
  lemma TombstoneBoundary(local: seq<Record>, remote: seq<Record>, tomb: Tombstones, w: Record)
    requires tomb.Valid()
    requires w.id in tomb.entries
    requires IsWinner(Candidates(local, remote, w.id), w, LastUpdated, RemoteWinsTie)
    ensures tomb.entries[w.id] >= Version(w, LastUpdated) <==> w !in MergeRoomCollection(local, remote, Some(tomb))
  {
    WinnerIsMerged(local, remote, w);
    MergeRoomCollectionOutcome(local, remote, Some(tomb));
  }

  /** The winner of an id is in the merged collection. */
  lemma WinnerIsMerged(local: seq<Record>, remote: seq<Record>, w: Record)
    requires IsWinner(Candidates(local, remote, w.id), w, LastUpdated, RemoteWinsTie)
    ensures w in Merge(local, remote, LastUpdated, RemoteWinsTie)
  {
    var merged := Merge(local, remote, LastUpdated, RemoteWinsTie);
    var cs := Candidates(local, remote, w.id);
    MergeOutcome(local, remote, LastUpdated, RemoteWinsTie);
    assert cs[0] in cs;
    assert |cs| > 0 && cs[0].id == w.id;
    assert w.id in Ids(local) + Ids(remote);
    var j :| 0 <= j < |merged| && merged[j].id == w.id;
    WinnerUnique(cs, merged[j], w, LastUpdated, RemoteWinsTie);
  }

  /** The third scenario of test-local.js, for any such records: a sale deleted
      at `ts` and pushed again with a `lastUpdated` between the old copy's and
      `ts` stays deleted. */
  lemma StaleUpdateStaysDeleted(vendas: seq<Record>, vendasNovas: seq<Record>, tomb: Tombstones)
    requires |vendas| == 1 && |vendasNovas| == 1 && vendas[0].id == vendasNovas[0].id
    requires tomb.Valid() && vendas[0].id in tomb.entries
    requires Version(vendas[0], LastUpdated) <= Version(vendasNovas[0], LastUpdated) <= tomb.entries[vendas[0].id]
    ensures MergeRoomCollection(vendas, vendasNovas, Some(tomb)) == []
  {
    SingleCandidates(vendas, vendasNovas);
    var cv := Candidates(vendas, vendasNovas, vendas[0].id);
    assert IsWinner(cv, vendasNovas[0], LastUpdated, RemoteWinsTie) by {
      assert WinsAt(cv, 1, LastUpdated, RemoteWinsTie);
    }
    var merged := Merge(vendas, vendasNovas, LastUpdated, RemoteWinsTie);
    MergeOutcome(vendas, vendasNovas, LastUpdated, RemoteWinsTie);
    OnlyWinner(vendas, vendasNovas, merged, vendasNovas[0], LastUpdated, RemoteWinsTie);
    MergeRoomCollectionOutcome(vendas, vendasNovas, Some(tomb));
    var r := MergeRoomCollection(vendas, vendasNovas, Some(tomb));
    assert vendasNovas[0] in merged;
    assert vendasNovas[0] !in r;
    assert forall x :: x !in r;
    assert Ids(r) == {};
    UniqueIdsCount(r);
  }

  /** Without tombstones (no map, or the empty map the scenario passes for
      `clientes`) and without remote records, a collection with no repeated
      id comes back as it was. */
  lemma NoTombstonesKeepCollection(s: seq<Record>)
    requires UniqueIds(s)
    ensures MergeRoomCollection(s, [], None) == s
    ensures MergeRoomCollection(s, [], Some(Empty())) == s
  {
    IndexOfUniqueKeys(s);
    IndexOfUniqueEntries(s);
    var m := OfferAll(IndexOf(s), [], LastUpdated, RemoteWinsTie);
    assert m == IndexOf(s);
    assert Values(m) == s;
  }

  // ---------------------------------------------------------------------
  // The pending-delete queue

  /** The room test-local.js stamps on every queued delete. */
  const MockRoom: string := "TEST-ROOM"

  datatype QueuedDelete = QueuedDelete(entity: string, id: Id, timestamp: int, room: string)

  /** A delete request: entity type, id, and the clock reading when it was queued. */
  datatype DeleteRequest = DeleteRequest(entity: string, id: Id, now: int)

  /** `queueDelete(entity, id)`: appends one entry; the function returns the
      queue it would serialise. */
  function QueueDelete(queue: seq<QueuedDelete>, req: DeleteRequest): seq<QueuedDelete> {
    queue + [QueuedDelete(req.entity, req.id, req.now, MockRoom)]
  }

  /** `flushPendingDeletes()`: a copy of the queue, which stays as it is. */
  function FlushPendingDeletes(queue: seq<QueuedDelete>): (r: (seq<QueuedDelete>, seq<QueuedDelete>)) {
    (queue, queue)
  }

  /** Queueing the requests one by one. */
  function QueueAll(queue: seq<QueuedDelete>, reqs: seq<DeleteRequest>): seq<QueuedDelete> {
    if |reqs| == 0 then queue else QueueDelete(QueueAll(queue, reqs[..|reqs| - 1]), reqs[|reqs| - 1])
  }

  /** Flushing after a run of `queueDelete` calls returns every queued delete,
      in the order queued, after what was already pending; the queue is kept. */
  lemma {:induction false} FlushReturnsQueueOrder(queue: seq<QueuedDelete>, reqs: seq<DeleteRequest>)
    ensures var (flushed, kept) := FlushPendingDeletes(QueueAll(queue, reqs));
            && kept == flushed
            && |flushed| == |queue| + |reqs|
            && flushed[..|queue|] == queue
            && forall i :: 0 <= i < |reqs| ==>
                 flushed[|queue| + i] == QueuedDelete(reqs[i].entity, reqs[i].id, reqs[i].now, MockRoom)
  {
    if |reqs| > 0 {
      FlushReturnsQueueOrder(queue, reqs[..|reqs| - 1]);
    }
  }
}

=== FILE: lww.dfy ===
/**
 * The last-write-wins merge of one collection, shared by the room merge of
 * test-local.js (`mergeRemoteData`, `mergeRoomData`) and by the browser
 * client (`mergeRemoteData` in public/app.js). Both build a map keyed by id
 * from the local records, then offer each remote record in turn; the two
 * differ only in the version field they read and in who keeps an id when
 * both versions are equal.
 *
 * The fold is stated against an independent description of the outcome:
 * for each id, the candidates are the last local copy followed by the
 * remote copies in arrival order, and the merge keeps the candidate with
 * the greatest version, ties going to the latest candidate (remote wins)
 * or to the earliest (local wins).
 */
module Lww {
  import opened Wrappers
  import opened JsMaps
  import opened Records

  /** The version field a merge compares. */
  datatype Clock = LastUpdated | Timestamp

  /** Who keeps an id when both copies carry the same version. */
  datatype TieBreak = RemoteWinsTie | LocalWinsTie

  /** The version of a record, read as `field || 0`. */
  function Version(r: Record, c: Clock): int {
    match c
    case LastUpdated => OrZero(r.lastUpdated)
    case Timestamp => OrZero(r.timestamp)
  }

  /** Whether an incoming copy displaces the copy already held for its id:
      `tRemote >= tLocal` in test-local.js, `tRemote > tLocal` in the client. */
  predicate Replaces(incoming: Record, held: Record, c: Clock, tie: TieBreak) {
    match tie
    case RemoteWinsTie => Version(incoming, c) >= Version(held, c)
    case LocalWinsTie => Version(incoming, c) > Version(held, c)
  }

  /** The intermediate `Map` from id to record. */
  type Index = JsMap<Id, Record>

  /** Every entry is stored under its own id. */
  ghost predicate KeyedById(m: Index) {
    && m.Valid()
    && forall k :: k in m.entries ==> m.entries[k].id == k
  }

  /** `local.forEach(item => map.set(item.id, item))`, starting from an empty map. */
  function IndexOf(s: seq<Record>): (m: Index)
    ensures KeyedById(m)
    ensures m.entries.Keys == Ids(s)
  {
    if |s| == 0 then Empty()
    else
      var last := s[|s| - 1];
      IdsOfPrefix(s);
      Set(IndexOf(s[..|s| - 1]), last.id, last)
  }

  /** One remote record: it is stored when its id is new or when it replaces the held copy. */
  function Offer(m: Index, r: Record, c: Clock, tie: TieBreak): (m': Index)
    requires KeyedById(m)
    ensures KeyedById(m')
    ensures m'.entries.Keys == m.entries.Keys + {r.id}
  {
    if r.id !in m.entries || Replaces(r, m.entries[r.id], c, tie) then Set(m, r.id, r) else m
  }

  /** `remote.forEach(...)`: the remote records offered in order. */
  function OfferAll(m: Index, rs: seq<Record>, c: Clock, tie: TieBreak): (m': Index)
    requires KeyedById(m)
    ensures KeyedById(m')
    ensures m'.entries.Keys == m.entries.Keys + Ids(rs)
  {
    if |rs| == 0 then m
    else
      IdsOfPrefix(rs);
      Offer(OfferAll(m, rs[..|rs| - 1], c, tie), rs[|rs| - 1], c, tie)
  }

  /** The merged collection, in the map's key order (`Array.from(map.values())`). */
  function Merge(local: seq<Record>, remote: seq<Record>, c: Clock, tie: TieBreak): seq<Record> {
    Values(OfferAll(IndexOf(local), remote, c, tie))
  }

  // ---------------------------------------------------------------------
  // The independent description of the outcome

  /** The last record of `s` carrying `id`: the one a map built from `s` keeps. */
  function LastCopy(s: seq<Record>, id: Id): (r: Option<Record>)
    ensures r.Some? ==> r.value in s && r.value.id == id
    ensures r.None? <==> id !in Ids(s)
  {
    if |s| == 0 then None
    else
      IdsOfPrefix(s);
      if s[|s| - 1].id == id then Some(s[|s| - 1])
      else LastCopy(s[..|s| - 1], id)
  }

  /** The records of `s` carrying `id`, in order. */
  function CopiesOf(s: seq<Record>, id: Id): (r: seq<Record>)
    ensures forall i :: 0 <= i < |r| ==> r[i].id == id && r[i] in s
    ensures |r| == 0 <==> id !in Ids(s)
  {
    if |s| == 0 then []
    else
      IdsOfPrefix(s);
      CopiesOf(s[..|s| - 1], id) + (if s[|s| - 1].id == id then [s[|s| - 1]] else [])
  }

  function AsSeq(o: Option<Record>): seq<Record> {
    match o
    case None => []
    case Some(r) => [r]
  }

  /** The copies of `id` a merge meets: the last local one, then the remote ones in order. */
  function Candidates(local: seq<Record>, remote: seq<Record>, id: Id): seq<Record> {
    AsSeq(LastCopy(local, id)) + CopiesOf(remote, id)
  }

  /** Candidate `i` is the one LWW keeps: no candidate has a greater version,
      and the candidates after it (remote wins ties) or before it (local wins
      ties) have a strictly smaller one. */
  ghost predicate WinsAt(cs: seq<Record>, i: int, c: Clock, tie: TieBreak)
    requires 0 <= i < |cs|
  {
    && (forall j :: 0 <= j < |cs| ==> Version(cs[j], c) <= Version(cs[i], c))
    && match tie
       case RemoteWinsTie => forall j :: i < j < |cs| ==> Version(cs[j], c) < Version(cs[i], c)
       case LocalWinsTie => forall j :: 0 <= j < i ==> Version(cs[j], c) < Version(cs[i], c)
  }

  ghost predicate IsWinner(cs: seq<Record>, w: Record, c: Clock, tie: TieBreak) {
    exists i :: 0 <= i < |cs| && cs[i] == w && WinsAt(cs, i, c, tie)
  }

  /** `r` is the outcome of merging `remote` into `local`: one record per id,
      exactly the ids of both sides, and for each id the LWW winner among its candidates. */
  ghost predicate HoldsWinners(local: seq<Record>, remote: seq<Record>, r: seq<Record>, c: Clock, tie: TieBreak) {
    && UniqueIds(r)
    && Ids(r) == Ids(local) + Ids(remote)
    && forall i :: 0 <= i < |r| ==> IsWinner(Candidates(local, remote, r[i].id), r[i], c, tie)
  }

  /** The same fold restricted to one id: the copy held after offering `rs` to `held`. */
  function Resolve(held: Option<Record>, rs: seq<Record>, c: Clock, tie: TieBreak): Option<Record> {
    if |rs| == 0 then held
    else
      var prev := Resolve(held, rs[..|rs| - 1], c, tie);
      var r := rs[|rs| - 1];
      if prev.None? || Replaces(r, prev.value, c, tie) then Some(r) else prev
  }

  // ---------------------------------------------------------------------
  // Lemmas

  /** A map built from `s` holds, for each id, the last record of `s` with that id. */
  lemma {:induction false} IndexOfKeepsLastCopy(s: seq<Record>, id: Id)
    ensures Get(IndexOf(s), id) == LastCopy(s, id)
  {
    if |s| > 0 {
      IndexOfKeepsLastCopy(s[..|s| - 1], id);
    }
  }

  /** Offering records never disturbs the entry of an id they do not carry,
      and the entry of `id` evolves exactly as `Resolve` over its copies. */
  lemma {:induction false} OfferAllPerId(m: Index, rs: seq<Record>, id: Id, c: Clock, tie: TieBreak)
    requires KeyedById(m)
    ensures Get(OfferAll(m, rs, c, tie), id) == Resolve(Get(m, id), CopiesOf(rs, id), c, tie)
  {
    if |rs| > 0 {
      var front := rs[..|rs| - 1];
      var r := rs[|rs| - 1];
      OfferAllPerId(m, front, id, c, tie);
      var mf := OfferAll(m, front, c, tie);
      assert OfferAll(m, rs, c, tie) == Offer(mf, r, c, tie);
      OfferGet(mf, r, id, c, tie);
      if r.id == id {
        var cs := CopiesOf(rs, id);
        assert cs == CopiesOf(front, id) + [r];
        assert cs[..|cs| - 1] == CopiesOf(front, id);
      } else {
        assert CopiesOf(rs, id) == CopiesOf(front, id);
      }
    }
  }

  /** One offer, seen from one id: other ids keep their copy; `id` takes `r` when it is new or replaces the held copy. */
  lemma OfferGet(m: Index, r: Record, id: Id, c: Clock, tie: TieBreak)
    requires KeyedById(m)
    ensures var held := Get(m, id);
            Get(Offer(m, r, c, tie), id)
              == if r.id != id then held
                 else if held.None? || Replaces(r, held.value, c, tie) then Some(r) else held
  {
  }

  /** Starting from a held copy is the same as meeting it first. */
  lemma {:induction false} ResolvePrepend(w: Record, rs: seq<Record>, c: Clock, tie: TieBreak)
    ensures Resolve(Some(w), rs, c, tie) == Resolve(None, [w] + rs, c, tie)
  {
    var cs := [w] + rs;
    if |rs| == 0 {
      assert cs[..0] == [];
    } else {
      ResolvePrepend(w, rs[..|rs| - 1], c, tie);
      assert cs[..|cs| - 1] == [w] + rs[..|rs| - 1];
    }
  }

  /** The fold keeps the LWW winner of the copies it met, and keeps nothing when it met none. */
  lemma {:induction false} ResolveKeepsWinner(cs: seq<Record>, c: Clock, tie: TieBreak)
    ensures Resolve(None, cs, c, tie).None? <==> |cs| == 0
    ensures |cs| > 0 ==> IsWinner(cs, Resolve(None, cs, c, tie).value, c, tie)
  {
    if |cs| > 0 {
      var front := cs[..|cs| - 1];
      var r := cs[|cs| - 1];
      var n := |cs| - 1;
      ResolveKeepsWinner(front, c, tie);
      var prev := Resolve(None, front, c, tie);
      assert cs == front + [r];
      if prev.None? {
        assert WinsAt(cs, 0, c, tie);
      } else {
        var i :| 0 <= i < |front| && front[i] == prev.value && WinsAt(front, i, c, tie);
        if Replaces(r, prev.value, c, tie) {
          NewcomerWins(front, r, i, c, tie);
        } else {
          HolderWins(front, r, i, c, tie);
        }
      }
    }
  }

  /** A copy that replaces the current winner wins among the copies met so far. */
  lemma NewcomerWins(front: seq<Record>, r: Record, i: int, c: Clock, tie: TieBreak)
    requires 0 <= i < |front| && WinsAt(front, i, c, tie) && Replaces(r, front[i], c, tie)
    ensures WinsAt(front + [r], |front|, c, tie)
  {
    var cs := front + [r];
    forall j | 0 <= j < |front|
      ensures Version(cs[j], c) <= Version(cs[|front|], c)
    {
      assert cs[j] == front[j];
    }
  }

  /** A copy that does not replace the current winner leaves it the winner. */
  lemma HolderWins(front: seq<Record>, r: Record, i: int, c: Clock, tie: TieBreak)
    requires 0 <= i < |front| && WinsAt(front, i, c, tie) && !Replaces(r, front[i], c, tie)
    ensures WinsAt(front + [r], i, c, tie)
  {
    var cs := front + [r];
    forall j | 0 <= j < |front|
      ensures cs[j] == front[j]
    {
    }
  }

  /** At most one candidate is the winner. */
  lemma WinnerUnique(cs: seq<Record>, w1: Record, w2: Record, c: Clock, tie: TieBreak)
    requires IsWinner(cs, w1, c, tie) && IsWinner(cs, w2, c, tie)
    ensures w1 == w2
  {
    var i1 :| 0 <= i1 < |cs| && cs[i1] == w1 && WinsAt(cs, i1, c, tie);
    var i2 :| 0 <= i2 < |cs| && cs[i2] == w2 && WinsAt(cs, i2, c, tie);
    assert i1 == i2;
  }
  /** When both sides hold a single id, a merge outcome is that id's winner alone. */
  lemma OnlyWinner(local: seq<Record>, remote: seq<Record>, r: seq<Record>, w: Record, c: Clock, tie: TieBreak)
    requires HoldsWinners(local, remote, r, c, tie)
    requires Ids(local) + Ids(remote) == {w.id}
    requires IsWinner(Candidates(local, remote, w.id), w, c, tie)
    ensures r == [w]
  {
    UniqueIdsCount(r);
    assert r[0] in r;
    WinnerUnique(Candidates(local, remote, w.id), r[0], w, c, tie);
  }


  /** Each id of either side is in the merged map, holding that id's winner;
      no other id is. */
  lemma MergedCopy(local: seq<Record>, remote: seq<Record>, id: Id, c: Clock, tie: TieBreak)
    ensures var m := OfferAll(IndexOf(local), remote, c, tie);
            && (id in m.entries <==> id in Ids(local) + Ids(remote))
            && (id in m.entries ==> IsWinner(Candidates(local, remote, id), m.entries[id], c, tie))
  {
    var m := OfferAll(IndexOf(local), remote, c, tie);
    var cs := Candidates(local, remote, id);
    OfferAllPerId(IndexOf(local), remote, id, c, tie);
    IndexOfKeepsLastCopy(local, id);
    var held := LastCopy(local, id);
    var copies := CopiesOf(remote, id);
    if held.Some? {
      ResolvePrepend(held.value, copies, c, tie);
    } else {
      assert cs == copies;
    }
    ResolveKeepsWinner(cs, c, tie);
  }

  /** The merged collection holds one record per id, exactly the ids of both
      sides, and for each id its LWW winner. */
  lemma MergeOutcome(local: seq<Record>, remote: seq<Record>, c: Clock, tie: TieBreak)
    ensures HoldsWinners(local, remote, Merge(local, remote, c, tie), c, tie)
  {
    var m := OfferAll(IndexOf(local), remote, c, tie);
    var vs := Values(m);
    forall i | 0 <= i < |vs|
      ensures IsWinner(Candidates(local, remote, vs[i].id), vs[i], c, tie)
    {
      MergedCopy(local, remote, vs[i].id, c, tie);
    }
    forall x | x in m.entries
      ensures x in Ids(vs)
    {
      var i :| 0 <= i < |m.keys| && m.keys[i] == x;
      assert vs[i].id == x;
    }
  }

  /** A winner stays the winner when it is met first and the same remote copies follow. */
  lemma WinnerMetFirst(pre: seq<Record>, rs: seq<Record>, w: Record, c: Clock, tie: TieBreak)
    requires |pre| <= 1
    requires IsWinner(pre + rs, w, c, tie)
    ensures IsWinner([w] + rs, w, c, tie)
  {
    var cs := pre + rs;
    var cs' := [w] + rs;
    var i :| 0 <= i < |cs| && cs[i] == w && WinsAt(cs, i, c, tie);
    var k := if tie == RemoteWinsTie && i >= |pre| then i - |pre| + 1 else 0;
    assert cs'[k] == w;
    forall j | 0 <= j < |cs'|
      ensures Version(cs'[j], c) <= Version(w, c)
    {
      if j > 0 { assert cs'[j] == cs[j - 1 + |pre|]; }
    }
    if tie == RemoteWinsTie {
      forall j | k < j < |cs'|
        ensures Version(cs'[j], c) < Version(w, c)
      {
        assert cs'[j] == cs[j - 1 + |pre|];
      }
    }
    assert WinsAt(cs', k, c, tie);
  }

  /** The last record of a collection with no repeated id carries an id no earlier record has. */
  lemma LastIdIsFresh(s: seq<Record>)
    requires |s| > 0 && UniqueIds(s)
    ensures s[|s| - 1].id !in Ids(s[..|s| - 1])
    ensures UniqueIds(s[..|s| - 1])
  {
  }

  /** Keyed by id, a collection with no repeated id lists its ids in its own order. */
  lemma {:induction false} IndexOfUniqueKeys(s: seq<Record>)
    requires UniqueIds(s)
    ensures IndexOf(s).keys == IdSeq(s)
  {
    if |s| > 0 {
      var front := s[..|s| - 1];
      LastIdIsFresh(s);
      IndexOfUniqueKeys(front);
      assert IdSeq(s) == IdSeq(front) + [s[|s| - 1].id];
    }
  }

  /** Keyed by id, a collection with no repeated id maps each of its ids to its own record. */
  lemma {:induction false} IndexOfUniqueEntries(s: seq<Record>)
    requires UniqueIds(s)
    ensures forall i :: 0 <= i < |s| ==> IndexOf(s).entries[s[i].id] == s[i]
  {
    if |s| > 0 {
      var front := s[..|s| - 1];
      LastIdIsFresh(s);
      IndexOfUniqueEntries(front);
      forall i | 0 <= i < |s| - 1
        ensures IndexOf(s).entries[s[i].id] == s[i]
      {
        assert s[i] == front[i];
      }
    }
  }

  /** Offering only known ids leaves the key order untouched. */
  lemma {:induction false} OfferAllKeepsKeys(m: Index, rs: seq<Record>, c: Clock, tie: TieBreak)
    requires KeyedById(m)
    requires Ids(rs) <= m.entries.Keys
    ensures OfferAll(m, rs, c, tie).keys == m.keys
  {
    if |rs| > 0 {
      IdsOfPrefix(rs);
      OfferAllKeepsKeys(m, rs[..|rs| - 1], c, tie);
    }
  }

  /** Merging the same remote copies again keeps a winner in place. */
  lemma WinnerResists(local: seq<Record>, remote: seq<Record>, w: Record, c: Clock, tie: TieBreak)
    requires IsWinner(Candidates(local, remote, w.id), w, c, tie)
    ensures Resolve(Some(w), CopiesOf(remote, w.id), c, tie) == Some(w)
  {
    var copies := CopiesOf(remote, w.id);
    WinnerMetFirst(AsSeq(LastCopy(local, w.id)), copies, w, c, tie);
    ResolvePrepend(w, copies, c, tie);
    ResolveKeepsWinner([w] + copies, c, tie);
    WinnerUnique([w] + copies, w, Resolve(None, [w] + copies, c, tie).value, c, tie);
  }

  /** A collection that already holds the outcome of merging `remote` is left
      exactly as it is (same records, same order) by merging `remote` again. */
  lemma MergeAgainIsFixed(local: seq<Record>, remote: seq<Record>, r: seq<Record>, c: Clock, tie: TieBreak)
    requires HoldsWinners(local, remote, r, c, tie)
    ensures Merge(r, remote, c, tie) == r
  {
    var ix := IndexOf(r);
    IndexOfUniqueKeys(r);
    IndexOfUniqueEntries(r);
    OfferAllKeepsKeys(ix, remote, c, tie);
    var m := OfferAll(ix, remote, c, tie);
    var vs := Values(m);
    forall i | 0 <= i < |r|
      ensures vs[i] == r[i]
    {
      var id := r[i].id;
      OfferAllPerId(ix, remote, id, c, tie);
      WinnerResists(local, remote, r[i], c, tie);
      assert Get(ix, id) == Some(r[i]);
      assert m.keys[i] == id;
    }
    assert vs == r;
  }
}

=== FILE: records.dfy ===
/**
 * The records every collection holds and the three collections a room shares.
 * A record is a JavaScript object with an `id`, business fields, and one of two
 * version fields: `lastUpdated` (the merge in test-local.js) or `timestamp`
 * (the browser client). Both are read as `field || 0`: a missing field counts as 0.
 */
module Records {
  import opened Wrappers

  /** Record ids. A numeric id is represented by its decimal text, so the
      model does not tell `200` from `"200"`. */
  type Id = string

  datatype Record = Record(
    id: Id,
    fields: map<string, string>,
    lastUpdated: Option<int>,
    timestamp: Option<int>)

  /** A room's or a device's data: collection name to collection. A missing
      name stands for a value that is `undefined` or not an array. */
  type Data = map<string, seq<Record>>

  /** The data a message carries, or that a variable holds: `None` when it is
      `undefined` or `null`; a value without the collections is `Some` of a
      map lacking them. */
  type Payload = Option<Data>

  const Clientes: string := "clientes"
  const Vendas: string := "vendas"
  const Gastos: string := "gastos"

  /** The three entity types, in the order every handler visits them. */
  const EntityTypes: seq<string> := [Clientes, Vendas, Gastos]

  /** The three type names are pairwise different (their first letters differ). */
  lemma EntityTypesDistinct()
    ensures Clientes != Vendas && Vendas != Gastos && Clientes != Gastos
  {
    assert Clientes[0] != Vendas[0] && Vendas[0] != Gastos[0] && Clientes[0] != Gastos[0];
  }

  /** `{ clientes: [], vendas: [], gastos: [] }` */
  const EmptyData: Data := map[Clientes := [], Vendas := [], Gastos := []]

  /** `v || 0` for a numeric field. */
  function OrZero(v: Option<int>): int {
    v.GetOr(0)
  }

  /** `Array.isArray(d[t]) ? d[t] : []` */
  function CollectionOf(d: Data, t: string): seq<Record> {
    if t in d then d[t] else []
  }

  /** The ids occurring in a collection. */
  function Ids(s: seq<Record>): set<Id> {
    set r | r in s :: r.id
  }

  /** The ids of `s`, position by position. */
  function IdSeq(s: seq<Record>): (r: seq<Id>)
    ensures |r| == |s| && forall i :: 0 <= i < |s| ==> r[i] == s[i].id
  {
    seq(|s|, i requires 0 <= i < |s| => s[i].id)
  }

  /** No id occurs twice in `s`. */
  ghost predicate UniqueIds(s: seq<Record>) {
    forall i, j :: 0 <= i < j < |s| ==> s[i].id != s[j].id
  }

  /** Dropping the last record of `s` drops its id, unless another record carries it. */
  lemma IdsOfPrefix(s: seq<Record>)
    requires |s| > 0
    ensures Ids(s) == Ids(s[..|s| - 1]) + {s[|s| - 1].id}
  {
    assert s == s[..|s| - 1] + [s[|s| - 1]];
  }

  /** A record whose id is new can be put in front without repeating an id. */
  lemma UniqueIdsCons(r: Record, s: seq<Record>)
    requires UniqueIds(s) && r.id !in Ids(s)
    ensures UniqueIds([r] + s)
  {
    forall i, j | 0 <= i < j < |[r] + s|
      ensures ([r] + s)[i].id != ([r] + s)[j].id
    {
      if i == 0 {
        assert ([r] + s)[j] == s[j - 1];
      } else {
        assert ([r] + s)[i] == s[i - 1] && ([r] + s)[j] == s[j - 1];
      }
    }
  }

  /** With no repeated id, a collection has as many records as ids. */
  lemma {:induction false} UniqueIdsCount(s: seq<Record>)
    requires UniqueIds(s)
    ensures |Ids(s)| == |s|
  {
    if |s| > 0 {
      var front := s[..|s| - 1];
      IdsOfPrefix(s);
      assert UniqueIds(front);
      UniqueIdsCount(front);
      assert s[|s| - 1].id !in Ids(front);
    }
  }
}

=== FILE: stamp_sort.dfy ===
/**
 * `Array.prototype.sort((a, b) => (b.lastUpdated || 0) - (a.lastUpdated || 0))`:
 * a stable sort by `lastUpdated`, greatest first, written as an insertion sort.
 */
module StampSort {
  import opened Records
  import opened Lww

  function Key(r: Record): int {
    Version(r, LastUpdated)
  }

  /** Non-increasing `lastUpdated` from front to back. */
  ghost predicate SortedDesc(s: seq<Record>) {
    forall i, j :: 0 <= i < j < |s| ==> Key(s[i]) >= Key(s[j])
  }

  /** A record whose key is at least every key of a sorted collection can lead it. */
  lemma SortedCons(r: Record, s: seq<Record>)
    requires SortedDesc(s)
    requires forall x :: x in s ==> Key(x) <= Key(r)
    ensures SortedDesc([r] + s)
  {
    forall i, j | 0 <= i < j < |[r] + s|
      ensures Key(([r] + s)[i]) >= Key(([r] + s)[j])
    {
      assert ([r] + s)[j] == s[j - 1];
      if i > 0 {
        assert ([r] + s)[i] == s[i - 1];
      }
    }
  }

  /** Places `r` before the first record whose key is not greater than its own. */
  function Insert(r: Record, s: seq<Record>): (t: seq<Record>)
    requires SortedDesc(s)
    ensures SortedDesc(t)
    ensures multiset(t) == multiset(s) + multiset{r}
    ensures forall x :: x in t <==> x in s || x == r
  {
    if |s| == 0 then [r]
    else if Key(r) >= Key(s[0]) then [r] + s
    else
      var rest := Insert(r, s[1..]);
      assert s == [s[0]] + s[1..];
      SortedCons(s[0], rest);
      [s[0]] + rest
  }

  function Sort(s: seq<Record>): (t: seq<Record>)
    ensures SortedDesc(t)
    ensures multiset(t) == multiset(s)
    ensures forall x :: x in t <==> x in s
  {
    if |s| == 0 then []
    else
      assert s == [s[0]] + s[1..];
      Insert(s[0], Sort(s[1..]))
  }

  /** Inserting a record whose id is new keeps ids unique. */
  lemma {:induction false} InsertKeepsIdsUnique(r: Record, s: seq<Record>)
    requires SortedDesc(s) && UniqueIds(s) && r.id !in Ids(s)
    ensures UniqueIds(Insert(r, s))
  {
    if |s| == 0 {
    } else if Key(r) >= Key(s[0]) {
      UniqueIdsCons(r, s);
    } else {
      assert s == [s[0]] + s[1..];
      InsertKeepsIdsUnique(r, s[1..]);
      UniqueIdsCons(s[0], Insert(r, s[1..]));
    }
  }

  /** Sorting keeps ids unique. */
  lemma {:induction false} SortKeepsIdsUnique(s: seq<Record>)
    requires UniqueIds(s)
    ensures UniqueIds(Sort(s))
  {
    if |s| > 0 {
      assert s == [s[0]] + s[1..];
      SortKeepsIdsUnique(s[1..]);
      assert Ids(Sort(s[1..])) == Ids(s[1..]);
      InsertKeepsIdsUnique(s[0], Sort(s[1..]));
    }
  }

  /** Sorting a collection that is already ordered leaves it as it is. */
  lemma {:induction false} SortKeepsSorted(s: seq<Record>)
    requires SortedDesc(s)
    ensures Sort(s) == s
  {
    if |s| > 0 {
      SortKeepsSorted(s[1..]);
      assert s == [s[0]] + s[1..];
    }
  }
}

=== FILE: wrappers.dfy ===
/** The `Option` type used for JavaScript values that may be `undefined` or `null`. */
module Wrappers {

  datatype Option<+T> = None | Some(value: T) {

    /** The wrapped value, or `default` when there is none. */
    function GetOr(default: T): T {
      match this
      case Some(v) => v
      case None => default
    }
  }
}

=== FILE: ws_server.dfy ===
/**
 * The room server of paes-server.js, over raw WebSockets: a `Map` from room
 * name to a room (a `Set` of sockets and the room's data), the handlers of
 * `join-room`, `update` and `close`, and the `/health` aggregate. Each handler
 * is a function from the server state to the new state and the messages it
 * sends. A socket is identified by a number; its `readyState` is reduced to
 * whether it is open, and `ws.room` is kept per socket.
 */
module WsServer {
  import opened Wrappers
  import opened JsMaps
  import opened Records

  /** The identity of a `ws` object. */
  type SocketId = nat

  /** The room joined when `join-room` names none. */
  const DefaultRoom: string := "default"

  /** `{ clients: Set<ws>, data }` */
  datatype Room = Room(clients: set<SocketId>, data: Payload)

  /** What the server keeps per socket: `ws.room` and whether it is OPEN. */
  datatype Session = Session(room: Option<string>, open: bool)

  datatype Server = Server(rooms: JsMap<string, Room>, sessions: map<SocketId, Session>)

  /** The messages the server sends. `Sync` carries the room size only in reply to a join. */
  datatype Reply =
    | Sync(data: Payload, size: Option<nat>)
    | UserJoined(clients: nat)
    | UserLeft(clients: nat)

  /** One message sent to each socket of `to`. */
  datatype Delivery = Delivery(to: set<SocketId>, msg: Reply)

  /** A handler's outcome: the new state and the deliveries, in order. */
  datatype Outcome = Outcome(server: Server, out: seq<Delivery>)

  /** A parsed inbound message; `Unparseable` is text `JSON.parse` rejects and
      `OtherType` a message of another `type`. `room` is `None` when absent. */
  datatype Message =
    | JoinRoom(room: Option<string>)
    | Update(data: Payload)
    | OtherType
    | Unparseable

  /** The socket is known and open: the only sockets the library reports events for. */
  predicate Connected(s: Server, sid: SocketId) {
    sid in s.sessions && s.sessions[sid].open
  }

  /** The sockets of `members` whose `readyState` is OPEN. */
  function OpenAmong(s: Server, members: set<SocketId>): (r: set<SocketId>)
    ensures forall c :: c in r <==> c in members && Connected(s, c)
  {
    set c | c in members && Connected(s, c)
  }

  /** `data.room || 'default'` */
  function RoomName(room: Option<string>): (code: string)
    ensures code != ""
    ensures room.Some? && room.value != "" ==> code == room.value
  {
    if room.Some? && room.value != "" then room.value else DefaultRoom
  }

  /** The room a join finds, or the empty one it creates. */
  function RoomOrNew(rooms: JsMap<string, Room>, code: string): Room {
    if code in rooms.entries then rooms.entries[code] else Room({}, Some(EmptyData))
  }

  // ---------------------------------------------------------------------
  // Handlers

  /** `wss.on('connection')`: a new open socket without a room. */
  function Connect(s: Server, sid: SocketId): (r: Server)
    requires sid !in s.sessions
    ensures r.rooms == s.rooms && Connected(r, sid) && r.sessions[sid].room.None?
    ensures forall c :: c != sid ==> (c in r.sessions <==> c in s.sessions) && (c in s.sessions ==> r.sessions[c] == s.sessions[c])
  {
    s.(sessions := s.sessions[sid := Session(None, true)])
  }

  /** `join-room`: `ws.room` becomes the room name, the room is created empty
      if absent, the socket is added to its set; the joiner gets `sync` with
      the data and the set's size, and every other open member `user-joined`. */
  function Join(s: Server, sid: SocketId, room: Option<string>): (o: Outcome)
    requires s.rooms.Valid() && Connected(s, sid)
    ensures o.server.rooms.Valid()
  {
    var code := RoomName(room);
    var r := RoomOrNew(s.rooms, code);
    var joined := r.(clients := r.clients + {sid});
    var s' := Server(Set(s.rooms, code, joined), s.sessions[sid := s.sessions[sid].(room := Some(code))]);
    Outcome(s', [Delivery({sid}, Sync(joined.data, Some(|joined.clients|))),
                 Delivery(OpenAmong(s', joined.clients - {sid}), UserJoined(|joined.clients|))])
  }

  /** `update`: ignored unless the socket has a room and the room exists;
      otherwise the room's data becomes the payload, unmerged, and every open
      member, the sender included, gets `sync` with it. */
  function Update(s: Server, sid: SocketId, payload: Payload): (o: Outcome)
    requires s.rooms.Valid() && Connected(s, sid)
    ensures o.server.rooms.Valid() && o.server.sessions == s.sessions
  {
    var current := s.sessions[sid].room;
    if current.None? || current.value !in s.rooms.entries then Outcome(s, [])
    else
      var code := current.value;
      var r := s.rooms.entries[code].(data := payload);
      var s' := s.(rooms := Set(s.rooms, code, r));
      Outcome(s', [Delivery(OpenAmong(s', r.clients), Sync(payload, None))])
  }

  /** `ws.on('close')`: the socket is no longer open; it leaves the set of its
      current room, whose remaining open members get `user-left` with the new
      size, and the room is deleted when its set is empty. */
  function Close(s: Server, sid: SocketId): (o: Outcome)
    requires s.rooms.Valid() && Connected(s, sid)
    ensures o.server.rooms.Valid()
  {
    var sessions' := s.sessions[sid := s.sessions[sid].(open := false)];
    var current := s.sessions[sid].room;
    if current.None? || current.value !in s.rooms.entries then Outcome(s.(sessions := sessions'), [])
    else
      var code := current.value;
      var r := s.rooms.entries[code];
      var left := r.(clients := r.clients - {sid});
      var s1 := Server(Set(s.rooms, code, left), sessions');
      var notice := Delivery(OpenAmong(s1, left.clients), UserLeft(|left.clients|));
      if |left.clients| == 0 then Outcome(s1.(rooms := Delete(s1.rooms, code)), [notice])
      else Outcome(s1, [notice])
  }

  /** `ws.on('message')`: `join-room` and `update` are handled; any other type,
      and text that does not parse (caught and logged), changes nothing. */
  function HandleMessage(s: Server, sid: SocketId, m: Message): (o: Outcome)
    requires s.rooms.Valid() && Connected(s, sid)
    ensures o.server.rooms.Valid()
    ensures (m.OtherType? || m.Unparseable?) ==> o == Outcome(s, [])
  {
    match m
    case JoinRoom(room) => Join(s, sid, room)
    case Update(payload) => Update(s, sid, payload)
    case _ => Outcome(s, [])
  }

  // ---------------------------------------------------------------------
  // /health

  /** `.reduce((sum, r) => sum + r.clients.size, 0)` over the rooms, in order. */
  function SumSizes(rs: seq<Room>): nat {
    if |rs| == 0 then 0 else SumSizes(rs[..|rs| - 1]) + |rs[|rs| - 1].clients|
  }

  /** `/health`: the number of rooms and the sum of their set sizes. */
  function Health(s: Server): (h: (nat, nat))
    requires s.rooms.Valid()
    ensures h.0 == |s.rooms.entries|
  {
    UniqueKeysCount(s.rooms);
    (s.rooms.Size(), SumSizes(Values(s.rooms)))
  }

  /** A valid map has as many entries as keys. */
  lemma UniqueKeysCount<K(!new), V>(m: JsMap<K, V>)
    requires m.Valid()
    ensures |m.entries| == |m.keys|
  {
    DistinctCount(m.keys);
    assert m.entries.Keys == set k | k in m.keys;
  }

  lemma {:induction false} DistinctCount<K>(s: seq<K>)
    requires Distinct(s)
    ensures |set k | k in s| == |s|
  {
    if |s| > 0 {
      var front := s[..|s| - 1];
      assert Distinct(front);
      DistinctCount(front);
      assert (set k | k in s) == (set k | k in front) + {s[|s| - 1]} by {
        assert s == front + [s[|s| - 1]];
      }
      assert s[|s| - 1] !in front;
    }
  }

  // ---------------------------------------------------------------------
  // Invariants and properties

  /** Every socket any room holds, counted once. */
  function Members(s: Server): set<SocketId> {
    set code, c | code in s.rooms.entries && c in s.rooms.entries[code].clients :: c
  }

  /** No room has an empty set; every member is a known socket; an open socket
      with a room is in that room's set. */
  ghost predicate Inv(s: Server) {
    && s.rooms.Valid()
    && (forall code :: code in s.rooms.entries ==> s.rooms.entries[code].clients != {})
    && (forall code, c :: code in s.rooms.entries && c in s.rooms.entries[code].clients ==> c in s.sessions)
    && (forall c :: Connected(s, c) && s.sessions[c].room.Some? ==>
          s.sessions[c].room.value in s.rooms.entries && c in s.rooms.entries[s.sessions[c].room.value].clients)
  }

  lemma InitialInv()
    ensures Inv(Server(Empty(), map[]))
  {
  }

  lemma ConnectKeepsInv(s: Server, sid: SocketId)
    requires Inv(s) && sid !in s.sessions
    ensures Inv(Connect(s, sid))
  {
  }

  /** After a join the socket is in the named room, `ws.room` names it, the
      joiner is told the set's size (itself included), and only the other open
      members hear `user-joined`; those two messages are all that is sent, and
      no other socket's session changes. A room that existed keeps its data and members;
      a new one starts with three empty collections. Other rooms are untouched. */
  lemma JoinOutcome(s: Server, sid: SocketId, room: Option<string>)
    requires s.rooms.Valid() && Connected(s, sid)
    ensures var o := Join(s, sid, room);
            var code := RoomName(room);
            && code in o.server.rooms.entries
            && o.server.rooms.entries[code].clients == RoomOrNew(s.rooms, code).clients + {sid}
            && o.server.rooms.entries[code].data == (if code in s.rooms.entries then s.rooms.entries[code].data else Some(EmptyData))
            && o.server.sessions[sid] == Session(Some(code), true)
            && o.server.sessions.Keys == s.sessions.Keys
            && (forall c :: c in s.sessions && c != sid ==> o.server.sessions[c] == s.sessions[c])
            && |o.out| == 2
            && o.out[0] == Delivery({sid}, Sync(o.server.rooms.entries[code].data, Some(|o.server.rooms.entries[code].clients|)))
            && sid !in o.out[1].to
            && (forall c :: c in o.out[1].to <==> c in o.server.rooms.entries[code].clients && c != sid && Connected(s, c))
            && o.out[1].msg == UserJoined(|o.server.rooms.entries[code].clients|)
            && (forall k :: k != code ==> Get(o.server.rooms, k) == Get(s.rooms, k))
  {
  }

  /** A member re-joining its room does not change the count; a newcomer adds one. */
  lemma JoinCount(s: Server, sid: SocketId, room: Option<string>)
    requires s.rooms.Valid() && Connected(s, sid)
    ensures var code := RoomName(room);
            var before := RoomOrNew(s.rooms, code).clients;
            |Join(s, sid, room).server.rooms.entries[code].clients| == if sid in before then |before| else |before| + 1
  {
  }

  /** With no room, or an empty name, a join goes to room `default`. */
  lemma JoinWithoutNameGoesToDefault(s: Server, sid: SocketId, room: Option<string>)
    requires s.rooms.Valid() && Connected(s, sid)
    requires room.None? || room == Some("")
    ensures DefaultRoom in Join(s, sid, room).server.rooms.entries
    ensures sid in Join(s, sid, room).server.rooms.entries[DefaultRoom].clients
  {
  }

  lemma JoinKeepsInv(s: Server, sid: SocketId, room: Option<string>)
    requires Inv(s) && Connected(s, sid)
    ensures Inv(Join(s, sid, room).server)
  {
  }

  /** Re-joining elsewhere moves `ws.room` but leaves the socket in the set of
      its previous room; once it closes, that room still counts it and is
      never deleted on its account. */
  lemma RejoinLeavesStaleMember(s: Server, sid: SocketId, previous: string, room: Option<string>)
    requires s.rooms.Valid() && Connected(s, sid)
    requires previous in s.rooms.entries && sid in s.rooms.entries[previous].clients && RoomName(room) != previous
    ensures var j := Join(s, sid, room).server;
            var c := Close(j, sid).server;
            && j.sessions[sid].room == Some(RoomName(room))
            && previous in c.rooms.entries && sid in c.rooms.entries[previous].clients
            && !Connected(c, sid)
  {
  }

  /** `update` replaces the room's data with the payload, exactly, and every
      open member, the sender included, receives it; nothing else changes.
      Without a room, or with the room gone, nothing happens. */
  lemma UpdateOutcome(s: Server, sid: SocketId, payload: Payload)
    requires s.rooms.Valid() && Connected(s, sid)
    ensures var o := Update(s, sid, payload);
            var current := s.sessions[sid].room;
            && (current.None? || current.value !in s.rooms.entries ==> o == Outcome(s, []))
            && (current.Some? && current.value in s.rooms.entries ==>
                  var code := current.value;
                  && o.server.rooms.keys == s.rooms.keys
                  && o.server.rooms.entries == s.rooms.entries[code := Room(s.rooms.entries[code].clients, payload)]
                  && o.out == [Delivery(OpenAmong(s, s.rooms.entries[code].clients), Sync(payload, None))])
  {
    var o := Update(s, sid, payload);
    var current := s.sessions[sid].room;
    if current.Some? && current.value in s.rooms.entries {
      assert OpenAmong(o.server, s.rooms.entries[current.value].clients) == OpenAmong(s, s.rooms.entries[current.value].clients);
    }
  }

  /** Under the invariant, an open socket with a room always finds it. */
  lemma UpdateFindsRoom(s: Server, sid: SocketId, payload: Payload)
    requires Inv(s) && Connected(s, sid) && s.sessions[sid].room.Some?
    ensures |Update(s, sid, payload).out| == 1 && sid in Update(s, sid, payload).out[0].to
  {
  }

  lemma UpdateKeepsInv(s: Server, sid: SocketId, payload: Payload)
    requires Inv(s) && Connected(s, sid)
    ensures Inv(Update(s, sid, payload).server)
  {
  }

  /** On close the socket is marked closed, keeping its `ws.room`, and no other
      session changes; it leaves its current room; the remaining open members
      get `user-left` with the new size; the room is deleted exactly when its
      set became empty; every other room is untouched. */
  lemma CloseOutcome(s: Server, sid: SocketId)
    requires s.rooms.Valid() && Connected(s, sid)
    ensures var o := Close(s, sid);
            var current := s.sessions[sid].room;
            && !Connected(o.server, sid)
            && o.server.sessions == s.sessions[sid := Session(current, false)]
            && (current.None? || current.value !in s.rooms.entries ==> o.server.rooms == s.rooms && o.out == [])
            && (current.Some? && current.value in s.rooms.entries ==>
                  var code := current.value;
                  var left := s.rooms.entries[code].clients - {sid};
                  && (code in o.server.rooms.entries <==> left != {})
                  && (code in o.server.rooms.entries ==> o.server.rooms.entries[code].clients == left)
                  && o.out == [Delivery(OpenAmong(o.server, left), UserLeft(|left|))]
                  && (forall k :: k != code ==> Get(o.server.rooms, k) == Get(s.rooms, k)))
  {
    var o := Close(s, sid);
    var current := s.sessions[sid].room;
    if current.Some? && current.value in s.rooms.entries {
      var code := current.value;
      var left := s.rooms.entries[code].clients - {sid};
      var s1 := Server(Set(s.rooms, code, Room(left, s.rooms.entries[code].data)), o.server.sessions);
      assert OpenAmong(o.server, left) == OpenAmong(s1, left);
    }
  }

  /** No room is ever left with an empty set: the invariant survives a close. */
  lemma CloseKeepsInv(s: Server, sid: SocketId)
    requires Inv(s) && Connected(s, sid)
    ensures Inv(Close(s, sid).server)
  {
    var o := Close(s, sid);
    var current := s.sessions[sid].room;
    if current.Some? && current.value in s.rooms.entries {
      var code := current.value;
      forall c | Connected(o.server, c) && o.server.sessions[c].room.Some?
        ensures o.server.sessions[c].room.value in o.server.rooms.entries
        ensures c in o.server.rooms.entries[o.server.sessions[c].room.value].clients
      {
        assert c != sid && Connected(s, c);
        if s.sessions[c].room.value == code {
          assert c in s.rooms.entries[code].clients - {sid};
        }
      }
    }
  }

  /** Unparseable text and messages of other types change nothing and send nothing. */
  lemma IgnoredMessagesChangeNothing(s: Server, sid: SocketId)
    requires s.rooms.Valid() && Connected(s, sid)
    ensures HandleMessage(s, sid, Unparseable) == Outcome(s, [])
    ensures HandleMessage(s, sid, OtherType) == Outcome(s, [])
  {
  }

  /** Every handler keeps the invariant, so no empty room ever survives. */
  lemma HandleMessageKeepsInv(s: Server, sid: SocketId, m: Message)
    requires Inv(s) && Connected(s, sid)
    ensures Inv(HandleMessage(s, sid, m).server)
  {
    match m
    case JoinRoom(room) => JoinKeepsInv(s, sid, room);
    case Update(payload) => UpdateKeepsInv(s, sid, payload);
    case _ =>
  }

  /** The sockets of a list of rooms, each counted once. */
  function Union(rs: seq<Room>): set<SocketId> {
    if |rs| == 0 then {} else Union(rs[..|rs| - 1]) + rs[|rs| - 1].clients
  }

  /** No socket is in two of the rooms. */
  ghost predicate DisjointRooms(rs: seq<Room>) {
    forall i, j :: 0 <= i < j < |rs| ==> rs[i].clients !! rs[j].clients
  }

  /** With no socket in two rooms, the summed sizes count each socket once. */
  lemma {:induction false} SumSizesOfDisjoint(rs: seq<Room>)
    requires DisjointRooms(rs)
    ensures SumSizes(rs) == |Union(rs)|
  {
    if |rs| > 0 {
      var front, last := rs[..|rs| - 1], rs[|rs| - 1];
      assert DisjointRooms(front);
      SumSizesOfDisjoint(front);
      UnionMembers(front);
      assert Union(front) !! last.clients by {
        forall c | c in Union(front)
          ensures c !in last.clients
        {
          var i :| 0 <= i < |front| && c in front[i].clients;
          assert rs[i] == front[i];
        }
      }
    }
  }

  lemma {:induction false} UnionMembers(rs: seq<Room>)
    ensures forall c :: c in Union(rs) <==> exists i :: 0 <= i < |rs| && c in rs[i].clients
  {
    if |rs| > 0 {
      var front := rs[..|rs| - 1];
      UnionMembers(front);
      forall c | c in Union(rs)
        ensures exists i :: 0 <= i < |rs| && c in rs[i].clients
      {
        if c in Union(front) {
          var i :| 0 <= i < |front| && c in front[i].clients;
          assert rs[i] == front[i];
        } else {
          assert c in rs[|rs| - 1].clients;
        }
      }
      forall c, i | 0 <= i < |rs| && c in rs[i].clients
        ensures c in Union(rs)
      {
        if i < |rs| - 1 {
          assert front[i] == rs[i];
        }
      }
    }
  }

  /** `/health`'s client count: when no socket is in two rooms it is the number
      of distinct sockets in rooms; a socket that re-joined elsewhere is counted
      once per room that still holds it. */
  lemma HealthCountsMembers(s: Server)
    requires s.rooms.Valid()
    requires forall a, b :: a in s.rooms.entries && b in s.rooms.entries && a != b ==>
               s.rooms.entries[a].clients !! s.rooms.entries[b].clients
    ensures Health(s).1 == |Members(s)|
  {
    ValuesDisjoint(s);
    SumSizesOfDisjoint(Values(s.rooms));
    UnionOfValues(s);
  }

  lemma ValuesDisjoint(s: Server)
    requires s.rooms.Valid()
    requires forall a, b :: a in s.rooms.entries && b in s.rooms.entries && a != b ==>
               s.rooms.entries[a].clients !! s.rooms.entries[b].clients
    ensures DisjointRooms(Values(s.rooms))
  {
    var vs := Values(s.rooms);
    forall i, j | 0 <= i < j < |vs|
      ensures vs[i].clients !! vs[j].clients
    {
      assert s.rooms.keys[i] != s.rooms.keys[j];
    }
  }

  /** The rooms' values hold exactly the members of the map's rooms. */
  lemma UnionOfValues(s: Server)
    requires s.rooms.Valid()
    ensures Union(Values(s.rooms)) == Members(s)
  {
    var vs := Values(s.rooms);
    UnionMembers(vs);
    forall c | c in Members(s)
      ensures c in Union(vs)
    {
      var code :| code in s.rooms.entries && c in s.rooms.entries[code].clients;
      var i :| 0 <= i < |s.rooms.keys| && s.rooms.keys[i] == code;
      assert c in vs[i].clients;
    }
    forall c | c in Union(vs)
      ensures c in Members(s)
    {
      var i :| 0 <= i < |vs| && c in vs[i].clients;
      assert s.rooms.keys[i] in s.rooms.entries;
    }
  }
}
